=== FILE: README.md ===
# ccopy: a customisable deep copy, modelled in Dafny

`ccopy` is a small Go package that deep copies arbitrary values by
reflection. A `Config` maps tag names to transformer functions. The copy
visits the value recursively, with these rules:

- Struct fields tagged `ccopy:"name"` are not copied. The transformer
  `Config["name"]` is applied to them instead.
- Unexported fields are left at their zero value.
- `time.Time` values, scalars, strings, functions and channels are shared.
- Nil pointers, interfaces, slices and maps stay nil.
- Every other pointer, interface, slice, array and map is rebuilt from
  copies of its parts.
- An invalid value, and a tag with no transformer, make the copy fail
  with an error.

The model describes values the way `reflect` sees them. A `Value` has one
constructor per kind, and every constructor except `Invalid` carries its
named `Type` (package path and name). A struct is a sequence of fields;
each field has a name, a visibility flag and a tag map. A slice or a map
is either nil or a sequence of elements or entries. The order of the
entry sequence stands for the map's iteration order.

A `Config` is a map from tag names to total functions `Value -> Value`.
The predicate `WellTyped(c)` states the package's documented demand on
those functions: each one returns a value of the type it receives.

The recursive dispatcher and its helpers are mutually recursive Dafny
functions that return `Result<Value, Error>`:

- `Copy` and `CopyValue`;
- `CopyStruct` / `CopyFields`;
- `CopyPointer` and `CopyInterface`;
- `CopySlice` / `CopyArray` / `CopyElems`;
- `CopyMap` / `CopyEntries`;
- `CopyTime`.

They follow the Go code branch for branch:

- the validity check comes first, then the `time.Time` check, then the
  kind switch;
- the zero-skip applies when a copied field or pointee is stored;
- the field loop stops at the first error;
- map entries are assigned through `SetMapIndex`, modelled by `Put`.

The model proves these properties:

- **When the copy succeeds.** The copy succeeds exactly on the *clean*
  values (`Semantics.Clean`). When it fails, the error arises at a
  position of the value (`Semantics.Raises`).
- **What a successful copy is.** With type-preserving transformers, the
  copy equals an independent reference definition, `Semantics.DeepCopyOf`.
  That definition is written with comprehensions, not loops. Here the
  zero-skip turns out to be unobservable.
- **Types are kept.** Under the same condition, the copy has the type of
  the original.
- **Plain values.** A value with no tags, no unexported fields, no
  duplicate map keys, no invalid parts and no `uintptr` or
  `unsafe.Pointer` copies to itself.
- **Each shape.** For each shape of value, a lemma states which error it
  reports and what it produces.
- **A `time.Time`.** It is kept whole, hidden fields included, although the
  struct loop would reset them.
- **The repository's examples.** Each one is replayed on the model.

## Model

| member | source | states |
|---|---|---|
| `Values.Zero` | ccopy.go:61 | the value a freshly allocated variable of the type holds is zero, of the same kind and the same type; a struct's zero keeps every field's name, visibility and tags, and an array's zero keeps its length; each field and element of the zero is the zero of the original part at its own type |
| `Values.ZeroIff` | ccopy.go:73 | `IsZero` holds exactly of the values equal to the zero of their own type |
| `Ccopy.TagOf` | ccopy.go:68 | a field whose tag has a `ccopy` entry gets that entry's value; a field without that entry reads as untagged (empty) |
| `Ccopy.ValueOf` | ccopy.go:21 | a non-nil argument is reflected as it is; the reflected value is invalid exactly when the argument is nil or itself invalid |
| `Ccopy.Message` | ccopy.go:79 | the invalid-value error reads "invalid value"; the missing-transformer message is "missing copy customiser for: " followed by the tag |
| `Ccopy.Copy` | ccopy.go:20-27 | a nil argument fails with `InvalidValue`; a successful copy has the kind of the argument |
| `Ccopy.CopyValue` | ccopy.go:29-58 | the invalid value fails; a time, scalar, string, func, chan or nil value is returned as it is; a success keeps type and kind |
| `Ccopy.CopyTime` | ccopy.go:167-169 | a `time.Time` is returned unchanged |
| `Ccopy.CopyStruct` | ccopy.go:60-89 | a successful struct copy has the same type and fields, each with the same name, visibility and tags |
| `Ccopy.CopyFields` | ccopy.go:63-87 | the loop keeps the fields already stored and the shape of every field |
| `Ccopy.SetUnlessZero` | ccopy.go:73-75 | a zero value leaves the destination field alone, a non-zero one is stored, no other field changes |
| `Ccopy.CopyPointer` | ccopy.go:91-104 | nil stays nil; a successful copy is a non-nil pointer of the same type |
| `Ccopy.CopyInterface` | ccopy.go:106-117 | nil stays nil; a successful copy is a non-nil interface of the same type |
| `Ccopy.CopySlice` | ccopy.go:119-132 | nil stays nil; a successful copy of a non-nil slice is non-nil with the same length |
| `Ccopy.CopyArray` | ccopy.go:134-145 | a successful copy is an array of the same type and length |
| `Ccopy.CopyElems` | ccopy.go:124-130 | the element loop appends exactly one copy per element after those already appended |
| `Ccopy.CopyMap` | ccopy.go:147-165 | nil stays nil; a successful copy is a non-nil map of the same type without duplicate keys |
| `Ccopy.CopyEntries` | ccopy.go:152-163 | the entry loop keeps the keys distinct when they start distinct |
| `Ccopy.Lookup` | ccopy.go:162 | a key is bound exactly when it is among the entries' keys |
| `Ccopy.Put` | ccopy.go:162 | after assigning, the key is bound to the new value, every other key keeps its binding, and no duplicate key appears |
| `Semantics.PutAll` | ccopy.go:153-163 | assigning entries in order binds exactly the old keys and the new ones, and keeps the keys distinct |
| `Loops.CopyFieldsStep` | ccopy.go:63-87 | unfolding lemma, a proof step rather than a property: one pass of the struct loop, where a stopping field ends it with its error and any other field is stored |
| `Loops.CopyFieldsSucceeds` | ccopy.go:63-87 | the struct loop succeeds exactly when no remaining field stops it |
| `Loops.CopyFieldsFails` | ccopy.go:63-87 | a failing struct loop reports the error of the first field that stops it |
| `Loops.CopyFieldsStores` | ccopy.go:63-87 | after a successful loop each field holds what its own step stores |
| `Loops.CopyElemsSucceeds` | ccopy.go:124-130 | the element loop succeeds exactly when every remaining element copies |
| `Loops.CopyElemsFails` | ccopy.go:137-143 | a failing element loop reports the first failing element's error |
| `Loops.CopyElemsCopies` | ccopy.go:137-143 | after a successful loop each element is its original's copy |
| `Loops.CopiedEntries` | ccopy.go:154-161 | the copied entries hold, entry for entry, the copies of the original keys and values |
| `Loops.CopyEntriesStep` | ccopy.go:153-163 | unfolding lemma, a proof step rather than a property: one pass of the map loop, where a failing key or value ends it with that error and any other pair is assigned |
| `Loops.CopyEntriesSucceeds` | ccopy.go:153-163 | the entry loop succeeds exactly when every remaining key and value copies |
| `Loops.CopyEntriesFails` | ccopy.go:153-163 | a failing entry loop reports the error of the first entry whose key or value fails |
| `Loops.CopyEntriesStores` | ccopy.go:153-163 | a successful entry loop assigns the copied entries in iteration order |
| `Properties.CopyOutcome` | ccopy.go:29-58 | the copy succeeds exactly on clean values, and any error it reports arises from an invalid position or a missing transformer inside the value |
| `Properties.DeepCopySameType` | ccopy.go:12-14 | with type-preserving transformers, the reference deep copy has the type of the original |
| `Properties.StoreUnlessZeroIntoZero` | ccopy.go:70-75 | storing a same-typed value unless it is zero, into a zeroed field, gives the field holding that value |
| `Properties.CopyIsDeepCopy` | ccopy.go:16-19 | with type-preserving transformers, a successful copy equals the reference deep copy |
| `Properties.CopyPreservesType` | ccopy.go:12-14 | with type-preserving transformers, a successful copy has the type of the original |
| `Properties.PutFresh` | ccopy.go:162 | assigning a key not yet present appends one entry |
| `Properties.PutAllFresh` | ccopy.go:153-163 | assigning entries with distinct new keys appends them in order |
| `Properties.PutAllLookup` | ccopy.go:153-163 | after assigning entries in order, each key is bound to the value of its last entry, and other keys keep their binding |
| `Properties.PlainCopyIsIdentity` | ccopy.go:16-20 | a value without invalid parts, tags, unexported fields or duplicate map keys copies to itself |
| `Shapes.CopyStructError` | ccopy.go:63-87 | a struct copy fails with an error exactly when the first field that stops the loop raises it |
| `Shapes.MissingCustomiserReported` | ccopy.go:77-80 | a tagged field without a transformer, after fields that copy cleanly, fails the copy naming its tag |
| `Shapes.CopyStructFields` | ccopy.go:60-89 | each field keeps its name, visibility and tags; an unexported field is zero, an untagged one holds its copy, a tagged one holds its transformer's result |
| `Shapes.CopyPointerSpec` | ccopy.go:91-104 | a pointer copy fails exactly when the pointee's copy fails, with its error; otherwise it points to that copy |
| `Shapes.CopyInterfaceSpec` | ccopy.go:106-117 | unfolding lemma: an interface copy fails exactly when the held value's copy fails, with its error; otherwise it holds that copy |
| `Shapes.CopySliceSpec` | ccopy.go:119-132 | a non-nil slice copies exactly when all its elements do, elementwise; a failure reports the first failing element |
| `Shapes.CopyArraySpec` | ccopy.go:134-145 | an array copies exactly when all its elements do, elementwise; a failure reports the first failing element |
| `Shapes.CopyMapSpec` | ccopy.go:147-165 | a non-nil map copies exactly when all keys and values do; each copied key, compared by the model's structural equality, is bound to the copied value of its last entry; a failure reports the first failing entry |
| `Shapes.TimeKeptAsIs` | ccopy.go:34-36 | a `time.Time` is returned whole, although the struct loop would reset its hidden non-zero fields |
| `Shapes.MessageIdentifiesError` | ccopy.go:79 | two errors print the same message exactly when they are the same error |
| `Scenarios.AnonymisersKeepType` | ccopy_test.go:20-29 | `AnonymiseName` and `AnonymiseData` return a value of the type they receive, whatever they receive |
| `Scenarios.PointToOneKeepsType` | ccopy_test.go:66-69 | the nil-field test's `fn` returns a value of the type it receives |
| `Scenarios.JohnDoeKeepsType` | ccopy_examples_test.go:14-16 | the documented example's `anonymiseName` returns a value of the type it receives |
| `Scenarios.ExampleConfigsWellTyped` | ccopy_test.go:32 | the example configurations hold only type-keeping transformers: this one, the nil-field test's (ccopy_test.go line 73) and the documented example's (ccopy_examples_test.go line 18), and the model's own `{"outer": JohnDoe}` used by `TaggedFieldNotEntered` |
| `Scenarios.CopiesAsPromised` | ccopy.go:16-19 | a clean value, under type-preserving transformers, copies to its reference deep copy |
| `Scenarios.AnonymiseNested` | ccopy_test.go:9-11 | for any strings, the nested struct is copyable and its tagged slice is cut to its first element |
| `Scenarios.AnonymiseSupported` | ccopy_test.go:13-18 | the anonymising example's struct holds no `uintptr` or `unsafe.Pointer`, whatever its data and name |
| `Scenarios.AnonymiseClean` | ccopy_test.go:31-34 | the anonymising example's struct copies without error, whatever its data and name |
| `Scenarios.AnonymiseDeepCopy` | ccopy_test.go:39-49 | for any data and name, the expected copy replaces the name, cuts the nested slice and keeps the rest |
| `Scenarios.AnonymiseCopy` | ccopy_test.go:31-50 | for any data and name, copying the anonymising example succeeds with the replaced name, the cut slice and the other fields unchanged |
| `Scenarios.AnonymiseExample` | ccopy_test.go:31-50 | copying the anonymising example gives the replaced name, the cut slice and the other fields unchanged |
| `Scenarios.NilPointerExample` | ccopy_test.go:52-63 | a nil `*int` copies to a nil `*int` |
| `Scenarios.NilFieldExample` | ccopy_test.go:65-82 | a transformer runs on a nil tagged field, and the pointer it returns is kept |
| `Scenarios.DocumentedDeepCopy` | ccopy_examples_test.go:7-18 | for any name, the documented example's struct is copyable and its copy holds "john doe" beside the unchanged `A` |
| `Scenarios.DocumentedExample` | ccopy_examples_test.go:5-26 | `{A: 2, Name: "Secret name"}` copies to `{A: 2, Name: "john doe"}` |
| `Scenarios.MissingTransformerExample` | ccopy.go:77-80 | the documented example with no transformer fails naming the missing tag |
| `Scenarios.ExampleMessage` | ccopy.go:79 | the message of the documented example's missing transformer, written out |
| `Scenarios.TaggedFieldNotEntered` | ccopy.go:76-85 | a tagged field goes to its transformer without being copied first, so tags nested inside it need no transformer |
| `Scenarios.UnexportedAndInvalidExample` | ccopy.go:64-67 | an unexported field comes out zero, and a nil argument fails as invalid |

## Left out

- The heap is not modelled: pointer identity, aliasing, and the fact that
  the pointers, slices and maps the copy builds itself are freshly
  allocated. A transformer's result is stored as it is, and a `time.Time`
  is returned as it is, so those parts of the copy may share memory with
  the original (the test's `AnonymiseData` returns `data[:1]`, which shares
  the original's backing array; a `time.Time` shares its `*Location`).
  Values are trees, so cyclic data, on which the Go code does not
  terminate, cannot be expressed.
- Slice capacity is left out. The copy's capacity equals the original's
  length, which is unobservable through the copy's contents.
- Map iteration order is random in Go. Here it is the order of the entry
  sequence, so the model reports one definite error where Go may report
  the error of any failing entry.
- Float keys are compared by their bits, not by Go's `==`. A NaN key
  never matches an existing entry in Go but matches an identical NaN
  here. `+0.0` and `-0.0` are one key in Go but two here: with `a`
  unexported, `map[S]int{S{F: 0.0, a: 1}: 1, S{F: -0.0, a: 2}: 2}` copies
  to one entry in Go and to two in the model. No float arithmetic is
  modelled.
- The `uintptr` and `unsafe.Pointer` panics are modelled as the
  precondition `Supported`, not as outcomes.
- The panics in `reflect.Value.Call` and `Set` are not modelled. Go panics
  when a transformer is not a function, takes another type than the
  field's, or returns another type. Transformers here are total functions
  that accept every value, so nothing in the model excludes these cases.
- Properties.CopyOutcome: reports success on a tagged field whose
  transformer Go would call with a wrongly typed argument or whose result
  `Set` would reject; Go panics there. `Ccopy.CopyValue` likewise returns a
  success. `WellTyped` only constrains result types, and only the theorems
  about the copy's contents (`CopyIsDeepCopy`, `CopyStructFields`,
  `CopyPointerSpec`, `CopyPreservesType`) assume it.
- Ccopy.CopyMap: map keys are compared by value, not by Go's `==` on keys.
  Keys that hold pointers are compared by their pointees. Two keys Go keeps
  apart can therefore merge: distinct pointers with equal pointees, or
  pointers whose pointees become equal once unexported fields are zeroed
  (`map[*S]int{&S{a: 1}: 1, &S{a: 2}: 2}` copies to one entry here and to
  two in Go, where every copied pointer is fresh). Keys holding
  floating-point or complex numbers can instead stay apart where Go merges
  them, as the float line above describes.
- Shapes.CopyMapSpec: its last-binding and distinct-keys clauses use the
  model's structural key equality. They describe Go's copy only for maps
  whose keys hold no pointers and no floating-point or complex numbers,
  for the reasons given under `Ccopy.CopyMap` and for float keys above.
- Ccopy.CopyValue: the precondition `Supported` excludes every `uintptr`
  or `unsafe.Pointer` at a position the copy could visit, including one
  that comes after an error. The Go code returns that error without
  panicking.
- A `Config` entry that is present but holds nil is not modelled. The Go
  code reports it as missing; here only an absent tag is missing.
- `reflect.ValueOf` unwraps the `interface{}` argument. Here the argument
  of `Copy` is already the dynamic value, or `None` for a nil interface.
- The error text of the panic, `unsupported type: …`, is not modelled.

=== FILE: ccopy.dfy ===
/** The customizable deep copy: `Config.Copy` and the recursive dispatcher
    with one copy rule per shape of value. */
module Ccopy {
  import opened Results
  import opened Values

  /** The struct tag key whose value names the field's transformer. */
  const TagKey: string := "ccopy"

  /** Maps a tag value to the transformer registered under it. A transformer
      receives the tagged field's value and returns its replacement. */
  type Config = map<string, Value -> Value>

  /** The two errors a copy can return. */
  datatype Error = InvalidValue | MissingCustomiser(tag: string)

  /** The error text Go reports. */
  function Message(e: Error): (m: string)
    ensures e.InvalidValue? ==> m == "invalid value"
    ensures e.MissingCustomiser? ==>
      && |m| == 29 + |e.tag|
      && m[..29] == "missing copy customiser for: "
      && m[29..] == e.tag
  {
    match e
    case InvalidValue => "invalid value"
    case MissingCustomiser(tag) => "missing copy customiser for: " + tag
  }

  /** `StructTag.Get("ccopy")`: the field's tag value, empty when the field
      carries no such tag. */
  function TagOf(f: Field): (t: string)
    ensures TagKey in f.tags ==> t == f.tags[TagKey]
    ensures TagKey !in f.tags ==> t == ""
    ensures t != "" ==> TagKey in f.tags
  {
    if TagKey in f.tags then f.tags[TagKey] else ""
  }

  /** Whether the dispatcher treats the value as a `time.Time`. */
  predicate IsTime(v: Value) {
    !v.Invalid? && v.ty.pkgPath == "time" && v.ty.name == "Time"
  }

  /** The value contains no `uintptr` or `unsafe.Pointer` at a position the
      copy visits. Go panics with "unsupported type" when it reaches one; the
      model makes their absence a precondition. Unexported and tagged fields
      are never visited, so they are not constrained. */
  predicate Supported(v: Value)
    decreases v
  {
    match v
    case IntV(_, k, _) => k != Uintptr
    case UnsafePointerV(_, _) => false
    case PtrV(_, e) => e.None? || Supported(e.value)
    case InterfaceV(_, e) => e.None? || Supported(e.value)
    case StructV(_, fs) =>
      forall i :: 0 <= i < |fs| && fs[i].exported && TagOf(fs[i]) == "" ==> Supported(fs[i].val)
    case SliceV(_, items) =>
      items.NilElements? || forall i :: 0 <= i < |items.values| ==> Supported(items.values[i])
    case ArrayV(_, es) => forall i :: 0 <= i < |es| ==> Supported(es[i])
    case MapV(_, entries) =>
      entries.NilEntries? ||
      forall i :: 0 <= i < |entries.pairs| ==>
        Supported(entries.pairs[i].key) && Supported(entries.pairs[i].val)
    case _ => true
  }

  /** A nil pointer, interface, slice or map. */
  predicate IsNil(v: Value) {
    || ((v.PtrV? || v.InterfaceV?) && v.elem.None?)
    || (v.SliceV? && v.items.NilElements?)
    || (v.MapV? && v.entries.NilEntries?)
  }

  /** The values the dispatcher returns unchanged: scalars, functions,
      channels and `time.Time`. */
  predicate PassedThrough(v: Value) {
    IsTime(v)
    || v.BoolV? || (v.IntV? && v.ikind != Uintptr) || v.FloatV? || v.ComplexV?
    || v.StringV? || v.FuncV? || v.ChanV?
  }

  /** `reflect.ValueOf` of the interface argument: a nil interface gives the
      invalid value. */
  function ValueOf(obj: Option<Value>): (v: Value)
    ensures obj.Some? ==> v == obj.value
    ensures v.Invalid? <==> obj.None? || obj == Some(Invalid)
  {
    if obj.None? then Invalid else obj.value
  }

  /** `Config.Copy`: deep copies `obj`. On an error the caller gets the error
      and no value. */
  function Copy(c: Config, obj: Option<Value>): (r: Result<Value, Error>)
    requires Supported(ValueOf(obj))
    ensures obj.None? ==> r == Failure(InvalidValue)
    ensures r.Success? ==> obj.Some? && KindName(r.value) == KindName(obj.value)
  {
    CopyValue(c, ValueOf(obj))
  }

  /** `copy`: rejects the invalid value, returns a `time.Time` as it is, and
      otherwise dispatches on the kind of the value. */
  function CopyValue(c: Config, ov: Value): (r: Result<Value, Error>)
    requires Supported(ov)
    ensures ov.Invalid? ==> r == Failure(InvalidValue)
    ensures PassedThrough(ov) ==> r == Success(ov)
    ensures IsNil(ov) ==> r == Success(ov)
    ensures r.Success? ==>
      !ov.Invalid? && !r.value.Invalid? && r.value.ty == ov.ty && KindName(r.value) == KindName(ov)
    decreases ov, 2, 0
  {
    if ov.Invalid? then Failure(InvalidValue)
    else if IsTime(ov) then CopyTime(c, ov)
    else match ov
      case StructV(_, _) => CopyStruct(c, ov)
      case PtrV(_, _) => CopyPointer(c, ov)
      case SliceV(_, _) => CopySlice(c, ov)
      case MapV(_, _) => CopyMap(c, ov)
      case InterfaceV(_, _) => CopyInterface(c, ov)
      case ArrayV(_, _) => CopyArray(c, ov)
      // bool, the numeric kinds, string, func and chan: shared as they are
      // (uintptr and unsafe.Pointer are excluded by `Supported`)
      case _ => Success(ov)
  }

  /** `copyTime`: a `time.Time` is an immutable value and is shared, unexported
      fields included. */
  function CopyTime(c: Config, ov: Value): (r: Result<Value, Error>)
    requires IsTime(ov)
    ensures r.Success? && r.value == ov
  {
    Success(ov)
  }

  /** `copyStruct`: starts from the zero value of the struct's type and fills
      the exported fields in declaration order. */
  function CopyStruct(c: Config, ov: Value): (r: Result<Value, Error>)
    requires ov.StructV? && Supported(ov)
    ensures r.Success? ==>
      && r.value.StructV? && r.value.ty == ov.ty
      && |r.value.fields| == |ov.fields|
      && forall j :: 0 <= j < |ov.fields| ==>
           r.value.fields[j].(val := Invalid) == ov.fields[j].(val := Invalid)
    decreases ov, 1, 0
  {
    CopyFields(c, ov, 0, Zero(ov).fields)
  }

  /** The loop of `copyStruct` from field `i` on, with `dest` the struct built
      so far. An unexported field is skipped; an untagged one receives the
      recursive copy of the original; a tagged one receives the result of its
      transformer. A zero result is not written, leaving the zero in place. */
  function CopyFields(c: Config, ov: Value, i: nat, dest: seq<Field>): (r: Result<Value, Error>)
    requires ov.StructV? && Supported(ov)
    requires i <= |ov.fields| && |dest| == |ov.fields|
    ensures r.Success? ==>
      && r.value.StructV? && r.value.ty == ov.ty
      && |r.value.fields| == |dest|
      && (forall j :: 0 <= j < i ==> r.value.fields[j] == dest[j])
      && (forall j :: 0 <= j < |dest| ==>
            r.value.fields[j].(val := Invalid) == dest[j].(val := Invalid))
    decreases ov, 0, |ov.fields| - i
  {
    if i == |ov.fields| then Success(StructV(ov.ty, dest))
    else
      var f := ov.fields[i];
      if !f.exported then CopyFields(c, ov, i + 1, dest)
      else if TagOf(f) == "" then
        var v :- CopyValue(c, f.val);
        CopyFields(c, ov, i + 1, SetUnlessZero(dest, i, v))
      else if TagOf(f) !in c then Failure(MissingCustomiser(TagOf(f)))
      else CopyFields(c, ov, i + 1, SetUnlessZero(dest, i, c[TagOf(f)](f.val)))
  }

  /** Stores `v` into field `i` of the destination unless `v` is zero, as
      `copyStruct` does for both untagged and tagged fields. */
  function SetUnlessZero(dest: seq<Field>, i: nat, v: Value): (r: seq<Field>)
    requires i < |dest|
    ensures |r| == |dest| && r[i].(val := Invalid) == dest[i].(val := Invalid)
    ensures forall j :: 0 <= j < |dest| && j != i ==> r[j] == dest[j]
    ensures IsZero(v) ==> r[i] == dest[i]
    ensures !IsZero(v) ==> r[i].val == v
  {
    if IsZero(v) then dest else dest[i := dest[i].(val := v)]
  }

  /** `copyPointer`: a nil pointer is returned as it is; otherwise the pointee
      is copied into a fresh cell, which stays zero when the copy is zero. */
  function CopyPointer(c: Config, ov: Value): (r: Result<Value, Error>)
    requires ov.PtrV? && Supported(ov)
    ensures ov.elem.None? ==> r == Success(ov)
    ensures r.Success? ==>
      r.value.PtrV? && r.value.ty == ov.ty && (r.value.elem.None? <==> ov.elem.None?)
    decreases ov, 1, 0
  {
    if ov.elem.None? then Success(ov)
    else
      var v :- CopyValue(c, ov.elem.value);
      Success(PtrV(ov.ty, Some(if IsZero(v) then Zero(ov.elem.value) else v)))
  }

  /** `copyInterface`: a nil interface is returned as it is; otherwise it
      holds the copy of the held value (always set, even when zero). */
  function CopyInterface(c: Config, ov: Value): (r: Result<Value, Error>)
    requires ov.InterfaceV? && Supported(ov)
    ensures ov.elem.None? ==> r == Success(ov)
    ensures r.Success? ==>
      r.value.InterfaceV? && r.value.ty == ov.ty && (r.value.elem.None? <==> ov.elem.None?)
    decreases ov, 1, 0
  {
    if ov.elem.None? then Success(ov)
    else
      var v :- CopyValue(c, ov.elem.value);
      Success(InterfaceV(ov.ty, Some(v)))
  }

  /** `copySlice`: a nil slice is returned as it is; otherwise a new slice
      receives the copies of the elements in order. */
  function CopySlice(c: Config, ov: Value): (r: Result<Value, Error>)
    requires ov.SliceV? && Supported(ov)
    ensures ov.items.NilElements? ==> r == Success(ov)
    ensures r.Success? ==>
      && r.value.SliceV? && r.value.ty == ov.ty
      && (r.value.items.NilElements? <==> ov.items.NilElements?)
      && (ov.items.Elements? ==> |r.value.items.values| == |ov.items.values|)
    decreases ov, 1, 0
  {
    if ov.items.NilElements? then Success(ov)
    else
      var es :- CopyElems(c, ov, ov.items.values, 0, []);
      Success(SliceV(ov.ty, Elements(es)))
  }

  /** `copyArray`: a new array receives the copies of the elements in order. */
  function CopyArray(c: Config, ov: Value): (r: Result<Value, Error>)
    requires ov.ArrayV? && Supported(ov)
    ensures r.Success? ==>
      r.value.ArrayV? && r.value.ty == ov.ty && |r.value.elems| == |ov.elems|
    decreases ov, 1, 0
  {
    var es :- CopyElems(c, ov, ov.elems, 0, []);
    Success(ArrayV(ov.ty, es))
  }

  /** The element loop shared by `copySlice` and `copyArray`: appends the copy
      of element `i` onwards to `acc`, stopping at the first error. */
  function CopyElems(c: Config, ov: Value, es: seq<Value>, i: nat, acc: seq<Value>)
    : (r: Result<seq<Value>, Error>)
    requires (ov.SliceV? && ov.items == Elements(es)) || (ov.ArrayV? && ov.elems == es)
    requires Supported(ov) && i <= |es| && |acc| == i
    ensures r.Success? ==> |r.value| == |es|
    ensures r.Success? ==> forall j :: 0 <= j < i ==> r.value[j] == acc[j]
    decreases ov, 0, |es| - i
  {
    if i == |es| then Success(acc)
    else
      var v :- CopyValue(c, es[i]);
      CopyElems(c, ov, es, i + 1, acc + [v])
  }

  /** `copyMap`: a nil map is returned as it is; otherwise a new map receives
      the copy of every key bound to the copy of its value. */
  function CopyMap(c: Config, ov: Value): (r: Result<Value, Error>)
    requires ov.MapV? && Supported(ov)
    ensures ov.entries.NilEntries? ==> r == Success(ov)
    ensures r.Success? ==>
      && r.value.MapV? && r.value.ty == ov.ty
      && (r.value.entries.NilEntries? <==> ov.entries.NilEntries?)
      && (r.value.entries.Entries? ==> DistinctKeys(r.value.entries.pairs))
    decreases ov, 1, 0
  {
    if ov.entries.NilEntries? then Success(ov)
    else
      var es :- CopyEntries(c, ov, 0, []);
      Success(MapV(ov.ty, Entries(es)))
  }

  /** The iteration of `copyMap` from entry `i` on: copies the key, then the
      value, and stores the pair into `acc`, stopping at the first error. */
  function CopyEntries(c: Config, ov: Value, i: nat, acc: seq<Entry>)
    : (r: Result<seq<Entry>, Error>)
    requires ov.MapV? && ov.entries.Entries? && Supported(ov)
    requires i <= |ov.entries.pairs|
    ensures r.Success? && DistinctKeys(acc) ==> DistinctKeys(r.value)
    ensures r.Success? ==> |r.value| <= |acc| + |ov.entries.pairs| - i
    decreases ov, 0, |ov.entries.pairs| - i
  {
    var es := ov.entries.pairs;
    if i == |es| then Success(acc)
    else
      var k :- CopyValue(c, es[i].key);
      var v :- CopyValue(c, es[i].val);
      CopyEntries(c, ov, i + 1, Put(acc, k, v))
  }

  /** No key occurs twice: the entries form a map. */
  predicate DistinctKeys(es: seq<Entry>) {
    es == [] || (es[0].key !in Keys(es[1..]) && DistinctKeys(es[1..]))
  }

  /** The keys of the entries. */
  function Keys(es: seq<Entry>): set<Value> {
    if es == [] then {} else {es[0].key} + Keys(es[1..])
  }

  /** The value bound to `k`, if any. */
  function Lookup(es: seq<Entry>, k: Value): (r: Option<Value>)
    ensures r.Some? <==> k in Keys(es)
  {
    if es == [] then None
    else if es[0].key == k then Some(es[0].val)
    else Lookup(es[1..], k)
  }

  /** `SetMapIndex`: binds `k` to `v`, replacing an existing binding of `k`
      in place or adding a new entry at the end. */
  function Put(es: seq<Entry>, k: Value, v: Value): (r: seq<Entry>)
    ensures Lookup(r, k) == Some(v)
    ensures forall k' :: k' != k ==> Lookup(r, k') == Lookup(es, k')
    ensures Keys(r) == Keys(es) + {k}
    ensures DistinctKeys(es) ==> DistinctKeys(r)
    ensures |es| <= |r| <= |es| + 1
  {
    if es == [] then [Entry(k, v)]
    else if es[0].key == k then [Entry(k, v)] + es[1..]
    else [es[0]] + Put(es[1..], k, v)
  }
}

=== FILE: loops.dfy ===
/** What each loop of the copy computes, stated in terms of the copies of
    the parts it visits: the loop over struct fields, over slice and array
    elements, and over map entries. */
module Loops {
  import opened Results
  import opened Values
  import opened Ccopy
  import opened Semantics

  /** The error the struct loop stops with at field `f`, if any. */
  function FieldError(c: Config, f: Field): Option<Error>
    requires f.exported && TagOf(f) == "" ==> Supported(f.val)
  {
    if !f.exported then None
    else if TagOf(f) == "" then
      (if CopyValue(c, f.val).Failure? then Some(CopyValue(c, f.val).error) else None)
    else if TagOf(f) in c then None
    else Some(MissingCustomiser(TagOf(f)))
  }

  /** `d` with `v` stored into it unless `v` is zero. */
  function StoreUnlessZero(d: Field, v: Value): Field {
    if IsZero(v) then d else d.(val := v)
  }

  /** The destination field `d` after the struct loop has handled field `f`
      (left as it is when `f` stops the loop). */
  function StoredField(c: Config, f: Field, d: Field): Field
    requires f.exported && TagOf(f) == "" ==> Supported(f.val)
  {
    if !f.exported then d
    else if TagOf(f) == "" then
      (if CopyValue(c, f.val).Success? then StoreUnlessZero(d, CopyValue(c, f.val).value) else d)
    else if TagOf(f) in c then StoreUnlessZero(d, c[TagOf(f)](f.val))
    else d
  }

  /** Field `j` is the first field at or after `i` that stops the loop, with
      error `e`. */
  predicate FirstFieldError(c: Config, ov: Value, i: nat, j: nat, e: Error)
    requires ov.StructV? && Supported(ov)
  {
    && i <= j < |ov.fields|
    && FieldError(c, ov.fields[j]) == Some(e)
    && forall k :: i <= k < j ==> FieldError(c, ov.fields[k]).None?
  }

  /** The destination the struct loop continues with after field `i`, when
      that field does not stop it: `dest` with field `i` stored. */
  function NextDest(c: Config, ov: Value, i: nat, dest: seq<Field>): seq<Field>
    requires ov.StructV? && Supported(ov)
    requires i < |ov.fields| && |dest| == |ov.fields|
    requires FieldError(c, ov.fields[i]).None?
  {
    dest[i := StoredField(c, ov.fields[i], dest[i])]
  }

  /** One step of the struct loop: a field that does not stop it is stored
      and the loop continues with the next one. */
  lemma CopyFieldsStep(c: Config, ov: Value, i: nat, dest: seq<Field>)
    requires ov.StructV? && Supported(ov)
    requires i < |ov.fields| && |dest| == |ov.fields|
    ensures FieldError(c, ov.fields[i]).Some? ==>
      CopyFields(c, ov, i, dest) == Failure(FieldError(c, ov.fields[i]).value)
    ensures FieldError(c, ov.fields[i]).None? ==>
      CopyFields(c, ov, i, dest) == CopyFields(c, ov, i + 1, NextDest(c, ov, i, dest))
  {
    var f := ov.fields[i];
    if f.exported && FieldError(c, f).None? {
      var v := if TagOf(f) == "" then CopyValue(c, f.val).value else c[TagOf(f)](f.val);
      assert SetUnlessZero(dest, i, v) == NextDest(c, ov, i, dest);
    } else if !f.exported {
      assert dest[i := dest[i]] == dest;
    }
  }

  /** The struct loop succeeds exactly when no field from `i` on stops it. */
  lemma {:induction false} CopyFieldsSucceeds(c: Config, ov: Value, i: nat, dest: seq<Field>)
    requires ov.StructV? && Supported(ov)
    requires i <= |ov.fields| && |dest| == |ov.fields|
    ensures CopyFields(c, ov, i, dest).Success? <==>
      forall j :: i <= j < |ov.fields| ==> FieldError(c, ov.fields[j]).None?
    decreases |ov.fields| - i
  {
    if i < |ov.fields| {
      CopyFieldsStep(c, ov, i, dest);
      if FieldError(c, ov.fields[i]).None? {
        CopyFieldsSucceeds(c, ov, i + 1, NextDest(c, ov, i, dest));
      }
    }
  }

  /** A failing struct loop reports the error of the first field that stops
      it. */
  lemma {:induction false} CopyFieldsFails(c: Config, ov: Value, i: nat, dest: seq<Field>)
    requires ov.StructV? && Supported(ov)
    requires i <= |ov.fields| && |dest| == |ov.fields|
    requires CopyFields(c, ov, i, dest).Failure?
    ensures exists j :: FirstFieldError(c, ov, i, j, CopyFields(c, ov, i, dest).error)
    decreases |ov.fields| - i
  {
    var e := CopyFields(c, ov, i, dest).error;
    CopyFieldsStep(c, ov, i, dest);
    if FieldError(c, ov.fields[i]).None? {
      CopyFieldsFails(c, ov, i + 1, NextDest(c, ov, i, dest));
      var j: nat :| FirstFieldError(c, ov, i + 1, j, e);
      assert FirstFieldError(c, ov, i, j, e);
    } else {
      assert FirstFieldError(c, ov, i, i, e);
    }
  }

  /** A successful struct loop stores into every field from `i` on what
      that field's rule produces. */
  lemma {:induction false} CopyFieldsStores(c: Config, ov: Value, i: nat, dest: seq<Field>)
    requires ov.StructV? && Supported(ov)
    requires i <= |ov.fields| && |dest| == |ov.fields|
    requires CopyFields(c, ov, i, dest).Success?
    ensures forall j :: i <= j < |ov.fields| ==>
      CopyFields(c, ov, i, dest).value.fields[j] == StoredField(c, ov.fields[j], dest[j])
    decreases |ov.fields| - i
  {
    if i < |ov.fields| {
      CopyFieldsStep(c, ov, i, dest);
      var d' := NextDest(c, ov, i, dest);
      CopyFieldsStores(c, ov, i + 1, d');
    }
  }

  /** Element `j` is the first element at or after `i` whose copy fails,
      with error `e`. */
  predicate FirstElemError(c: Config, es: seq<Value>, i: nat, j: nat, e: Error)
    requires forall k :: 0 <= k < |es| ==> Supported(es[k])
  {
    && i <= j < |es|
    && CopyValue(c, es[j]) == Failure(e)
    && forall k :: i <= k < j ==> CopyValue(c, es[k]).Success?
  }

  /** The elements of a supported slice or array are supported. */
  lemma ElemsSupported(ov: Value, es: seq<Value>)
    requires (ov.SliceV? && ov.items == Elements(es)) || (ov.ArrayV? && ov.elems == es)
    requires Supported(ov)
    ensures forall k :: 0 <= k < |es| ==> Supported(es[k])
  {
    if ov.SliceV? {
      assert ov.items.values == es;
    }
  }

  /** The element loop succeeds exactly when every element from `i` on
      copies without error. */
  lemma {:induction false} CopyElemsSucceeds(
    c: Config, ov: Value, es: seq<Value>, i: nat, acc: seq<Value>)
    requires (ov.SliceV? && ov.items == Elements(es)) || (ov.ArrayV? && ov.elems == es)
    requires Supported(ov) && i <= |es| && |acc| == i
    ensures forall k :: 0 <= k < |es| ==> Supported(es[k])
    ensures CopyElems(c, ov, es, i, acc).Success? <==>
      forall j :: i <= j < |es| ==> CopyValue(c, es[j]).Success?
    decreases |es| - i
  {
    ElemsSupported(ov, es);
    if i < |es| {
      if CopyValue(c, es[i]).Success? {
        var acc' := acc + [CopyValue(c, es[i]).value];
        assert CopyElems(c, ov, es, i, acc) == CopyElems(c, ov, es, i + 1, acc');
        CopyElemsSucceeds(c, ov, es, i + 1, acc');
        assert (forall j :: i <= j < |es| ==> CopyValue(c, es[j]).Success?) <==>
               (forall j :: i + 1 <= j < |es| ==> CopyValue(c, es[j]).Success?);
      } else {
        assert CopyElems(c, ov, es, i, acc).Failure?;
        assert !CopyValue(c, es[i]).Success?;
      }
    }
  }

  /** A failing element loop reports the error of the first element whose
      copy fails. */
  lemma {:induction false} CopyElemsFails(
    c: Config, ov: Value, es: seq<Value>, i: nat, acc: seq<Value>)
    requires (ov.SliceV? && ov.items == Elements(es)) || (ov.ArrayV? && ov.elems == es)
    requires Supported(ov) && i <= |es| && |acc| == i
    requires CopyElems(c, ov, es, i, acc).Failure?
    ensures forall k :: 0 <= k < |es| ==> Supported(es[k])
    ensures exists j :: FirstElemError(c, es, i, j, CopyElems(c, ov, es, i, acc).error)
    decreases |es| - i
  {
    ElemsSupported(ov, es);
    var e := CopyElems(c, ov, es, i, acc).error;
    if CopyValue(c, es[i]).Success? {
      CopyElemsFails(c, ov, es, i + 1, acc + [CopyValue(c, es[i]).value]);
      var j: nat :| FirstElemError(c, es, i + 1, j, e);
      assert FirstElemError(c, es, i, j, e);
    } else {
      assert FirstElemError(c, es, i, i, e);
    }
  }

  /** A successful element loop holds, at every position from `i` on, the
      copy of the element at that position. */
  lemma {:induction false} CopyElemsCopies(
    c: Config, ov: Value, es: seq<Value>, i: nat, acc: seq<Value>)
    requires (ov.SliceV? && ov.items == Elements(es)) || (ov.ArrayV? && ov.elems == es)
    requires Supported(ov) && i <= |es| && |acc| == i
    requires CopyElems(c, ov, es, i, acc).Success?
    ensures forall k :: 0 <= k < |es| ==> Supported(es[k])
    ensures forall j :: i <= j < |es| ==>
      CopyValue(c, es[j]) == Success(CopyElems(c, ov, es, i, acc).value[j])
    decreases |es| - i
  {
    ElemsSupported(ov, es);
    if i < |es| {
      var acc' := acc + [CopyValue(c, es[i]).value];
      CopyElemsCopies(c, ov, es, i + 1, acc');
      assert CopyElems(c, ov, es, i, acc).value[i] == acc'[i];
    }
  }

  /** The error the map iteration stops with at entry `x`, if any: the key
      is copied first, then the value. */
  function EntryError(c: Config, x: Entry): Option<Error>
    requires Supported(x.key) && Supported(x.val)
  {
    if CopyValue(c, x.key).Failure? then Some(CopyValue(c, x.key).error)
    else if CopyValue(c, x.val).Failure? then Some(CopyValue(c, x.val).error)
    else None
  }

  /** Every entry's key and value are supported. */
  predicate EntriesSupported(ps: seq<Entry>) {
    forall k :: 0 <= k < |ps| ==> Supported(ps[k].key) && Supported(ps[k].val)
  }

  /** Entry `j` is the first entry at or after `i` whose copy fails, with
      error `e`. */
  predicate FirstEntryError(c: Config, ps: seq<Entry>, i: nat, j: nat, e: Error)
    requires EntriesSupported(ps)
  {
    && i <= j < |ps|
    && EntryError(c, ps[j]) == Some(e)
    && forall k :: i <= k < j ==> EntryError(c, ps[k]).None?
  }

  /** `y` is the entry `x` with its key and value replaced by their
      copies. */
  predicate CopiedPair(c: Config, x: Entry, y: Entry)
    requires Supported(x.key) && Supported(x.val)
  {
    CopyValue(c, x.key) == Success(y.key) && CopyValue(c, x.val) == Success(y.val)
  }

  /** The entries with key and value replaced by their copies. */
  function CopiedEntries(c: Config, xs: seq<Entry>): (r: seq<Entry>)
    requires EntriesSupported(xs)
    requires forall k :: 0 <= k < |xs| ==> EntryError(c, xs[k]).None?
    ensures |r| == |xs|
    ensures forall k :: 0 <= k < |xs| ==> CopiedPair(c, xs[k], r[k])
  {
    if xs == [] then []
    else
      assert EntryError(c, xs[0]).None?;
      assert forall k :: 1 <= k < |xs| ==> xs[1..][k - 1] == xs[k];
      var rest := CopiedEntries(c, xs[1..]);
      [Entry(CopyValue(c, xs[0].key).value, CopyValue(c, xs[0].val).value)] + rest
  }

  /** The keys and values of a supported non-nil map are supported. */
  lemma MapEntriesSupported(ov: Value)
    requires ov.MapV? && ov.entries.Entries? && Supported(ov)
    ensures EntriesSupported(ov.entries.pairs)
  {
  }

  /** The map iteration succeeds exactly when every entry from `i` on copies
      without error. */
  lemma {:induction false} CopyEntriesSucceeds(c: Config, ov: Value, i: nat, acc: seq<Entry>)
    requires ov.MapV? && ov.entries.Entries? && Supported(ov)
    requires i <= |ov.entries.pairs|
    ensures EntriesSupported(ov.entries.pairs)
    ensures CopyEntries(c, ov, i, acc).Success? <==>
      forall j :: i <= j < |ov.entries.pairs| ==> EntryError(c, ov.entries.pairs[j]).None?
    decreases |ov.entries.pairs| - i
  {
    var ps := ov.entries.pairs;
    MapEntriesSupported(ov);
    if i < |ps| {
      CopyEntriesStep(c, ov, i, acc);
      if EntryError(c, ps[i]).None? {
        var acc' := Put(acc, CopyValue(c, ps[i].key).value, CopyValue(c, ps[i].val).value);
        CopyEntriesSucceeds(c, ov, i + 1, acc');
        assert (forall j :: i <= j < |ps| ==> EntryError(c, ps[j]).None?) <==>
               (forall j :: i + 1 <= j < |ps| ==> EntryError(c, ps[j]).None?);
      }
    }
  }

  /** A failing map iteration reports the error of the first entry whose
      key or value copy fails. */
  lemma {:induction false} CopyEntriesFails(c: Config, ov: Value, i: nat, acc: seq<Entry>)
    requires ov.MapV? && ov.entries.Entries? && Supported(ov)
    requires i <= |ov.entries.pairs|
    requires CopyEntries(c, ov, i, acc).Failure?
    ensures EntriesSupported(ov.entries.pairs)
    ensures exists j :: FirstEntryError(c, ov.entries.pairs, i, j, CopyEntries(c, ov, i, acc).error)
    decreases |ov.entries.pairs| - i
  {
    var ps := ov.entries.pairs;
    var e := CopyEntries(c, ov, i, acc).error;
    CopyEntriesStep(c, ov, i, acc);
    if EntryError(c, ps[i]).None? {
      var acc' := CopyEntriesContinues(c, ov, i, acc);
      CopyEntriesFails(c, ov, i + 1, acc');
      var j: nat :| FirstEntryError(c, ps, i + 1, j, e);
      FirstEntryErrorExtend(c, ps, i, j, e);
    } else {
      FirstEntryErrorHere(c, ps, i, e);
    }
  }

  /** One step of the map iteration: an entry whose copy fails stops it with
      that error, any other entry is assigned and the iteration continues. */
  lemma CopyEntriesStep(c: Config, ov: Value, i: nat, acc: seq<Entry>)
    requires ov.MapV? && ov.entries.Entries? && Supported(ov)
    requires i < |ov.entries.pairs|
    ensures EntriesSupported(ov.entries.pairs)
    ensures EntryError(c, ov.entries.pairs[i]).Some? ==>
      CopyEntries(c, ov, i, acc) == Failure(EntryError(c, ov.entries.pairs[i]).value)
    ensures EntryError(c, ov.entries.pairs[i]).None? ==>
      CopyEntries(c, ov, i, acc) ==
      CopyEntries(c, ov, i + 1, Put(acc, CopyValue(c, ov.entries.pairs[i].key).value,
                                         CopyValue(c, ov.entries.pairs[i].val).value))
  {
    MapEntriesSupported(ov);
  }

  /** The accumulator the map iteration continues with after an entry that
      copies cleanly. */
  lemma CopyEntriesContinues(c: Config, ov: Value, i: nat, acc: seq<Entry>)
    returns (acc': seq<Entry>)
    requires ov.MapV? && ov.entries.Entries? && Supported(ov)
    requires i < |ov.entries.pairs|
    requires EntriesSupported(ov.entries.pairs) && EntryError(c, ov.entries.pairs[i]).None?
    ensures CopyEntries(c, ov, i, acc) == CopyEntries(c, ov, i + 1, acc')
  {
    CopyEntriesStep(c, ov, i, acc);
    var ps := ov.entries.pairs;
    acc' := Put(acc, CopyValue(c, ps[i].key).value, CopyValue(c, ps[i].val).value);
  }

  /** An entry whose copy fails is the first failing entry from itself on. */
  lemma FirstEntryErrorHere(c: Config, ps: seq<Entry>, i: nat, e: Error)
    requires EntriesSupported(ps) && i < |ps| && EntryError(c, ps[i]) == Some(e)
    ensures FirstEntryError(c, ps, i, i, e)
  {
  }

  /** An entry that copies cleanly does not change which later entry is the
      first to fail. */
  lemma FirstEntryErrorExtend(c: Config, ps: seq<Entry>, i: nat, j: nat, e: Error)
    requires EntriesSupported(ps) && i < |ps| && EntryError(c, ps[i]).None?
    requires FirstEntryError(c, ps, i + 1, j, e)
    ensures FirstEntryError(c, ps, i, j, e)
  {
  }

  /** A successful map iteration stores the copied entries from `i` on, one
      after another, into `acc`. */
  lemma {:induction false} CopyEntriesStores(c: Config, ov: Value, i: nat, acc: seq<Entry>)
    requires ov.MapV? && ov.entries.Entries? && Supported(ov)
    requires i <= |ov.entries.pairs|
    requires EntriesSupported(ov.entries.pairs)
    requires forall j :: i <= j < |ov.entries.pairs| ==> EntryError(c, ov.entries.pairs[j]).None?
    ensures CopyEntries(c, ov, i, acc) ==
      Success(PutAll(acc, CopiedEntries(c, ov.entries.pairs[i..])))
    decreases |ov.entries.pairs| - i
  {
    var ps := ov.entries.pairs;
    if i < |ps| {
      var xs := CopiedEntries(c, ps[i..]);
      var acc' := Put(acc, xs[0].key, xs[0].val);
      assert ps[i..][1..] == ps[i + 1..];
      CopyEntriesStores(c, ov, i + 1, acc');
    } else {
      assert CopiedEntries(c, ps[i..]) == [];
    }
  }
}

=== FILE: properties.dfy ===
/** Properties of the copy: when it succeeds, which error it reports, and
    what the successful copy is. */
module Properties {
  import opened Results
  import opened Values
  import opened Ccopy
  import opened Semantics
  import opened Loops

  /** The copy succeeds exactly on the clean values, and an error it
      reports always arises from some position of the value. */
  lemma {:induction false} CopyOutcome(c: Config, v: Value)
    requires Supported(v)
    ensures CopyValue(c, v).Success? <==> Clean(c, v)
    ensures CopyValue(c, v).Failure? ==> Raises(c, v, CopyValue(c, v).error)
    decreases v
  {
    if !v.Invalid? && !IsTime(v) {
      match v
      case PtrV(_, e) =>
        if e.Some? { CopyOutcome(c, e.value); }
      case InterfaceV(_, e) =>
        if e.Some? { CopyOutcome(c, e.value); }
      case StructV(_, fs) =>
        forall j | 0 <= j < |fs| && fs[j].exported && TagOf(fs[j]) == ""
          ensures CopyValue(c, fs[j].val).Success? <==> Clean(c, fs[j].val)
          ensures CopyValue(c, fs[j].val).Failure? ==>
            Raises(c, fs[j].val, CopyValue(c, fs[j].val).error)
        {
          CopyOutcome(c, fs[j].val);
        }
        StructOutcome(c, v);
      case SliceV(_, items) =>
        if items.Elements? {
          var es := items.values;
          forall j | 0 <= j < |es|
            ensures CopyValue(c, es[j]).Success? <==> Clean(c, es[j])
            ensures CopyValue(c, es[j]).Failure? ==> Raises(c, es[j], CopyValue(c, es[j]).error)
          {
            CopyOutcome(c, es[j]);
          }
          ElemsOutcome(c, v, es);
        }
      case ArrayV(_, es) =>
        forall j | 0 <= j < |es|
          ensures CopyValue(c, es[j]).Success? <==> Clean(c, es[j])
          ensures CopyValue(c, es[j]).Failure? ==> Raises(c, es[j], CopyValue(c, es[j]).error)
        {
          CopyOutcome(c, es[j]);
        }
        ElemsOutcome(c, v, es);
      case MapV(_, entries) =>
        if entries.Entries? {
          var ps := entries.pairs;
          forall j | 0 <= j < |ps|
            ensures CopyValue(c, ps[j].key).Success? <==> Clean(c, ps[j].key)
            ensures CopyValue(c, ps[j].key).Failure? ==>
              Raises(c, ps[j].key, CopyValue(c, ps[j].key).error)
            ensures CopyValue(c, ps[j].val).Success? <==> Clean(c, ps[j].val)
            ensures CopyValue(c, ps[j].val).Failure? ==>
              Raises(c, ps[j].val, CopyValue(c, ps[j].val).error)
          {
            CopyOutcome(c, ps[j].key);
            CopyOutcome(c, ps[j].val);
          }
          EntriesOutcome(c, v);
        }
      case _ =>
    }
  }

  /** The struct case of `CopyOutcome`, given the property for the fields. */
  lemma StructOutcome(c: Config, v: Value)
    requires v.StructV? && !IsTime(v) && Supported(v)
    requires forall j :: 0 <= j < |v.fields| && v.fields[j].exported && TagOf(v.fields[j]) == "" ==>
      && (CopyValue(c, v.fields[j].val).Success? <==> Clean(c, v.fields[j].val))
      && (CopyValue(c, v.fields[j].val).Failure? ==>
            Raises(c, v.fields[j].val, CopyValue(c, v.fields[j].val).error))
    ensures CopyValue(c, v).Success? <==> Clean(c, v)
    ensures CopyValue(c, v).Failure? ==> Raises(c, v, CopyValue(c, v).error)
  {
    var fs := v.fields;
    CopyFieldsSucceeds(c, v, 0, Zero(v).fields);
    assert CopyValue(c, v) == CopyFields(c, v, 0, Zero(v).fields);
    if CopyValue(c, v).Failure? {
      var e := CopyValue(c, v).error;
      CopyFieldsFails(c, v, 0, Zero(v).fields);
      var j: nat :| FirstFieldError(c, v, 0, j, e);
      assert fs[j].exported;
    }
  }

  /** The slice and array case of `CopyOutcome`, given the property for the
      elements. */
  lemma ElemsOutcome(c: Config, v: Value, es: seq<Value>)
    requires (v.SliceV? && v.items == Elements(es)) || (v.ArrayV? && v.elems == es)
    requires !IsTime(v) && Supported(v)
    requires forall j :: 0 <= j < |es| ==>
      && Supported(es[j])
      && (CopyValue(c, es[j]).Success? <==> Clean(c, es[j]))
      && (CopyValue(c, es[j]).Failure? ==> Raises(c, es[j], CopyValue(c, es[j]).error))
    ensures CopyValue(c, v).Success? <==> Clean(c, v)
    ensures CopyValue(c, v).Failure? ==> Raises(c, v, CopyValue(c, v).error)
  {
    CopyElemsSucceeds(c, v, es, 0, []);
    var r := CopyElems(c, v, es, 0, []);
    if v.SliceV? {
      assert CopyValue(c, v) == CopySlice(c, v);
    } else {
      assert CopyValue(c, v) == CopyArray(c, v);
    }
    assert CopyValue(c, v).Success? <==> r.Success?;
    if CopyValue(c, v).Failure? {
      var e := CopyValue(c, v).error;
      assert r == Failure(e);
      CopyElemsFails(c, v, es, 0, []);
      var j: nat :| FirstElemError(c, es, 0, j, e);
      assert Raises(c, es[j], e);
    }
  }

  /** The map case of `CopyOutcome`, given the property for the keys and
      values. */
  lemma EntriesOutcome(c: Config, v: Value)
    requires v.MapV? && v.entries.Entries? && !IsTime(v) && Supported(v)
    requires forall j :: 0 <= j < |v.entries.pairs| ==>
      && (CopyValue(c, v.entries.pairs[j].key).Success? <==> Clean(c, v.entries.pairs[j].key))
      && (CopyValue(c, v.entries.pairs[j].key).Failure? ==>
            Raises(c, v.entries.pairs[j].key, CopyValue(c, v.entries.pairs[j].key).error))
      && (CopyValue(c, v.entries.pairs[j].val).Success? <==> Clean(c, v.entries.pairs[j].val))
      && (CopyValue(c, v.entries.pairs[j].val).Failure? ==>
            Raises(c, v.entries.pairs[j].val, CopyValue(c, v.entries.pairs[j].val).error))
    ensures CopyValue(c, v).Success? <==> Clean(c, v)
    ensures CopyValue(c, v).Failure? ==> Raises(c, v, CopyValue(c, v).error)
  {
    var ps := v.entries.pairs;
    CopyEntriesSucceeds(c, v, 0, []);
    var r := CopyEntries(c, v, 0, []);
    assert CopyValue(c, v) == CopyMap(c, v);
    assert CopyValue(c, v).Success? <==> r.Success?;
    if CopyValue(c, v).Failure? {
      var e := CopyValue(c, v).error;
      assert r == Failure(e);
      CopyEntriesFails(c, v, 0, []);
      var j: nat :| FirstEntryError(c, ps, 0, j, e);
      assert Raises(c, ps[j].key, e) || Raises(c, ps[j].val, e);
    }
  }

  /** With type-preserving transformers, the deep copy has the type of the
      original. */
  lemma {:induction false} DeepCopySameType(c: Config, v: Value)
    requires WellTyped(c)
    ensures SameType(DeepCopyOf(c, v), v)
    decreases v
  {
    if !v.Invalid? && !IsTime(v) {
      match v
      case StructV(_, fs) =>
        var d := DeepCopyOf(c, v);
        forall j | 0 <= j < |fs|
          ensures ZeroField(d.fields[j]) == ZeroField(fs[j])
        {
          if !fs[j].exported {
            ZeroIdempotent(fs[j].val);
          } else if TagOf(fs[j]) == "" {
            DeepCopySameType(c, fs[j].val);
          }
        }
        assert Zero(d).fields == Zero(v).fields;
      case ArrayV(_, es) =>
        var d := DeepCopyOf(c, v);
        forall j | 0 <= j < |es|
          ensures Zero(d.elems[j]) == Zero(es[j])
        {
          DeepCopySameType(c, es[j]);
        }
        assert Zero(d).elems == Zero(v).elems;
      case _ =>
    }
  }

  /** Storing `w` unless it is zero into a zeroed field gives the field
      holding `w`, when `w` has the field's type: the zero-skip of the
      source cannot be observed. */
  lemma StoreUnlessZeroIntoZero(f: Field, w: Value)
    requires SameType(w, f.val)
    ensures StoreUnlessZero(ZeroField(f), w) == f.(val := w)
  {
    ZeroIff(w);
  }

  /** With type-preserving transformers, a successful copy is the deep copy
      `DeepCopyOf` describes. */
  lemma {:induction false} CopyIsDeepCopy(c: Config, v: Value)
    requires Supported(v) && WellTyped(c)
    requires CopyValue(c, v).Success?
    ensures CopyValue(c, v).value == DeepCopyOf(c, v)
    decreases v
  {
    if !v.Invalid? && !IsTime(v) {
      match v
      case PtrV(ty, e) =>
        if e.Some? {
          CopyIsDeepCopy(c, e.value);
          DeepCopySameType(c, e.value);
          ZeroIff(DeepCopyOf(c, e.value));
        }
      case InterfaceV(_, e) =>
        if e.Some? { CopyIsDeepCopy(c, e.value); }
      case StructV(_, fs) =>
        forall j | 0 <= j < |fs| && fs[j].exported && TagOf(fs[j]) == ""
                   && CopyValue(c, fs[j].val).Success?
          ensures CopyValue(c, fs[j].val).value == DeepCopyOf(c, fs[j].val)
        {
          CopyIsDeepCopy(c, fs[j].val);
        }
        StructDeepCopy(c, v);
      case SliceV(_, items) =>
        if items.Elements? {
          var es := items.values;
          forall j | 0 <= j < |es| && CopyValue(c, es[j]).Success?
            ensures CopyValue(c, es[j]).value == DeepCopyOf(c, es[j])
          {
            CopyIsDeepCopy(c, es[j]);
          }
          ElemsDeepCopy(c, v, es);
        }
      case ArrayV(_, es) =>
        forall j | 0 <= j < |es| && CopyValue(c, es[j]).Success?
          ensures CopyValue(c, es[j]).value == DeepCopyOf(c, es[j])
        {
          CopyIsDeepCopy(c, es[j]);
        }
        ElemsDeepCopy(c, v, es);
      case MapV(_, entries) =>
        if entries.Entries? {
          var ps := entries.pairs;
          forall j | 0 <= j < |ps|
            ensures CopyValue(c, ps[j].key).Success? ==>
              CopyValue(c, ps[j].key).value == DeepCopyOf(c, ps[j].key)
            ensures CopyValue(c, ps[j].val).Success? ==>
              CopyValue(c, ps[j].val).value == DeepCopyOf(c, ps[j].val)
          {
            if CopyValue(c, ps[j].key).Success? { CopyIsDeepCopy(c, ps[j].key); }
            if CopyValue(c, ps[j].val).Success? { CopyIsDeepCopy(c, ps[j].val); }
          }
          EntriesDeepCopy(c, v);
        }
      case _ =>
    }
  }

  /** The struct case of `CopyIsDeepCopy`, given the property for the
      fields. */
  lemma StructDeepCopy(c: Config, v: Value)
    requires v.StructV? && !IsTime(v) && Supported(v) && WellTyped(c)
    requires CopyValue(c, v).Success?
    requires forall j ::
      (0 <= j < |v.fields| && v.fields[j].exported && TagOf(v.fields[j]) == ""
       && CopyValue(c, v.fields[j].val).Success?) ==>
      CopyValue(c, v.fields[j].val).value == DeepCopyOf(c, v.fields[j].val)
    ensures CopyValue(c, v).value == DeepCopyOf(c, v)
  {
    var fs := v.fields;
    var z := Zero(v).fields;
    assert CopyValue(c, v) == CopyFields(c, v, 0, z);
    CopyFieldsSucceeds(c, v, 0, z);
    CopyFieldsStores(c, v, 0, z);
    var r := CopyValue(c, v).value;
    var d := DeepCopyOf(c, v);
    forall j | 0 <= j < |fs|
      ensures r.fields[j] == d.fields[j]
    {
      assert z[j] == ZeroField(fs[j]);
      assert FieldError(c, fs[j]).None?;
      if fs[j].exported && TagOf(fs[j]) == "" {
        DeepCopySameType(c, fs[j].val);
        StoreUnlessZeroIntoZero(fs[j], DeepCopyOf(c, fs[j].val));
      } else if fs[j].exported {
        StoreUnlessZeroIntoZero(fs[j], c[TagOf(fs[j])](fs[j].val));
      }
    }
    assert r.fields == d.fields;
  }

  /** The slice and array case of `CopyIsDeepCopy`, given the property for
      the elements. */
  lemma ElemsDeepCopy(c: Config, v: Value, es: seq<Value>)
    requires (v.SliceV? && v.items == Elements(es)) || (v.ArrayV? && v.elems == es)
    requires !IsTime(v) && Supported(v) && CopyValue(c, v).Success?
    requires forall j :: 0 <= j < |es| ==> Supported(es[j])
    requires forall j :: 0 <= j < |es| && CopyValue(c, es[j]).Success? ==>
      CopyValue(c, es[j]).value == DeepCopyOf(c, es[j])
    ensures CopyValue(c, v).value == DeepCopyOf(c, v)
  {
    var r := CopyElems(c, v, es, 0, []);
    assert r.Success?;
    CopyElemsCopies(c, v, es, 0, []);
    var rs := r.value;
    var ds := seq(|es|, j requires 0 <= j < |es| => DeepCopyOf(c, es[j]));
    assert rs == ds;
  }

  /** The map case of `CopyIsDeepCopy`, given the property for the keys and
      values. */
  lemma EntriesDeepCopy(c: Config, v: Value)
    requires v.MapV? && v.entries.Entries? && !IsTime(v) && Supported(v) && CopyValue(c, v).Success?
    requires forall j :: 0 <= j < |v.entries.pairs| ==>
      && (CopyValue(c, v.entries.pairs[j].key).Success? ==>
            CopyValue(c, v.entries.pairs[j].key).value == DeepCopyOf(c, v.entries.pairs[j].key))
      && (CopyValue(c, v.entries.pairs[j].val).Success? ==>
            CopyValue(c, v.entries.pairs[j].val).value == DeepCopyOf(c, v.entries.pairs[j].val))
    ensures CopyValue(c, v).value == DeepCopyOf(c, v)
  {
    var ps := v.entries.pairs;
    CopyEntriesSucceeds(c, v, 0, []);
    assert CopyEntries(c, v, 0, []).Success?;
    CopyEntriesStores(c, v, 0, []);
    assert ps[0..] == ps;
    var xs := CopiedEntries(c, ps);
    var ds := seq(|ps|, j requires 0 <= j < |ps| =>
      Entry(DeepCopyOf(c, ps[j].key), DeepCopyOf(c, ps[j].val)));
    assert xs == ds;
  }

  /** With type-preserving transformers, a successful copy has the type of
      the original. */
  lemma CopyPreservesType(c: Config, v: Value)
    requires Supported(v) && WellTyped(c)
    requires CopyValue(c, v).Success?
    ensures SameType(CopyValue(c, v).value, v)
  {
    CopyIsDeepCopy(c, v);
    DeepCopySameType(c, v);
  }

  /** The keys of two entry lists put side by side. */
  lemma {:induction false} KeysAppend(a: seq<Entry>, b: seq<Entry>)
    ensures Keys(a + b) == Keys(a) + Keys(b)
    decreases |a|
  {
    if a != [] {
      assert (a + b)[0] == a[0];
      assert (a + b)[1..] == a[1..] + b;
      KeysAppend(a[1..], b);
      assert Keys(a + b) == {a[0].key} + Keys(a[1..] + b);
    } else {
      assert a + b == b;
    }
  }

  /** Binding a key the entries do not hold adds an entry at the end. */
  lemma {:induction false} PutFresh(acc: seq<Entry>, k: Value, v: Value)
    requires k !in Keys(acc)
    ensures Put(acc, k, v) == acc + [Entry(k, v)]
    decreases |acc|
  {
    if acc != [] {
      PutFresh(acc[1..], k, v);
      assert acc == [acc[0]] + acc[1..];
    }
  }

  /** Storing entries whose keys are distinct and new appends them in order. */
  lemma {:induction false} PutAllFresh(acc: seq<Entry>, xs: seq<Entry>)
    requires DistinctKeys(xs) && Keys(acc) !! Keys(xs)
    ensures PutAll(acc, xs) == acc + xs
    decreases |xs|
  {
    if xs != [] {
      var x := xs[0];
      FreshHead(acc, xs);
      PutFresh(acc, x.key, x.val);
      var acc' := acc + [x];
      assert PutAll(acc, xs) == PutAll(acc', xs[1..]);
      PutAllFresh(acc', xs[1..]);
      AppendShift(acc, xs);
    }
  }

  /** Appending the first entry, then the rest, appends them all. */
  lemma AppendShift(acc: seq<Entry>, xs: seq<Entry>)
    requires xs != []
    ensures (acc + [xs[0]]) + xs[1..] == acc + xs
  {
    assert [xs[0]] + xs[1..] == xs;
  }

  /** Moving the first of the distinct new entries onto the accumulated ones
      keeps the rest distinct and new. */
  lemma FreshHead(acc: seq<Entry>, xs: seq<Entry>)
    requires xs != [] && DistinctKeys(xs) && Keys(acc) !! Keys(xs)
    ensures xs[0].key !in Keys(acc)
    ensures DistinctKeys(xs[1..]) && Keys(acc + [xs[0]]) !! Keys(xs[1..])
  {
    assert Keys(xs) == {xs[0].key} + Keys(xs[1..]);
    KeysAppend(acc, [xs[0]]);
    assert Keys([xs[0]]) == {xs[0].key};
  }

  /** Assigning entries in order binds each key to the value of its last
      entry, and leaves the keys they do not mention as they were. */
  lemma {:induction false} PutAllLookup(acc: seq<Entry>, xs: seq<Entry>, k: Value)
    ensures Lookup(PutAll(acc, xs), k) ==
      if LastBinding(xs, k).Some? then LastBinding(xs, k) else Lookup(acc, k)
    decreases |xs|
  {
    if xs != [] {
      PutAllLookup(Put(acc, xs[0].key, xs[0].val), xs[1..], k);
    }
  }

  /** A value without invalid parts, tags, unexported fields or duplicate
      map keys copies to itself, whatever the configuration. */
  lemma {:induction false} PlainCopyIsIdentity(c: Config, v: Value)
    requires Supported(v) && Plain(v)
    ensures CopyValue(c, v) == Success(v)
    decreases v, 1
  {
    if !IsTime(v) {
      match v
      case PtrV(_, e) =>
        if e.Some? {
          PlainCopyIsIdentity(c, e.value);
          ZeroIff(e.value);
        }
      case InterfaceV(_, e) =>
        if e.Some? { PlainCopyIsIdentity(c, e.value); }
      case StructV(_, fs) => PlainStructIdentity(c, v);
      case SliceV(_, items) =>
        if items.Elements? { PlainElemsIdentity(c, v, items.values); }
      case ArrayV(_, es) => PlainElemsIdentity(c, v, es);
      case MapV(_, entries) =>
        if entries.Entries? { PlainEntriesIdentity(c, v); }
      case _ =>
    }
  }

  lemma {:induction false} PlainStructIdentity(c: Config, v: Value)
    requires v.StructV? && !IsTime(v) && Supported(v) && Plain(v)
    ensures CopyFields(c, v, 0, Zero(v).fields) == Success(v)
    decreases v, 0
  {
    var fs := v.fields;
    forall j | 0 <= j < |fs|
      ensures CopyValue(c, fs[j].val) == Success(fs[j].val)
    {
      PlainCopyIsIdentity(c, fs[j].val);
    }
    var z := Zero(v).fields;
    CopyFieldsSucceeds(c, v, 0, z);
    CopyFieldsStores(c, v, 0, z);
    var r := CopyFields(c, v, 0, z).value;
    forall j | 0 <= j < |fs|
      ensures r.fields[j] == fs[j]
    {
      assert z[j] == ZeroField(fs[j]);
      StoreUnlessZeroIntoZero(fs[j], fs[j].val);
    }
    assert r.fields == fs;
  }

  lemma {:induction false} PlainElemsIdentity(c: Config, v: Value, es: seq<Value>)
    requires (v.SliceV? && v.items == Elements(es)) || (v.ArrayV? && v.elems == es)
    requires !IsTime(v) && Supported(v) && Plain(v)
    ensures CopyElems(c, v, es, 0, []) == Success(es)
    decreases v, 0
  {
    assert forall j :: 0 <= j < |es| ==> Plain(es[j]) by {
      if v.SliceV? { assert v.items.values == es; } else { assert v.elems == es; }
    }
    forall j | 0 <= j < |es|
      ensures CopyValue(c, es[j]) == Success(es[j])
    {
      PlainCopyIsIdentity(c, es[j]);
    }
    CopyElemsSucceeds(c, v, es, 0, []);
    CopyElemsCopies(c, v, es, 0, []);
    assert CopyElems(c, v, es, 0, []).value == es;
  }

  lemma {:induction false} PlainEntriesIdentity(c: Config, v: Value)
    requires v.MapV? && v.entries.Entries? && !IsTime(v) && Supported(v) && Plain(v)
    ensures CopyEntries(c, v, 0, []) == Success(v.entries.pairs)
    decreases v, 0
  {
    var ps := v.entries.pairs;
    forall j | 0 <= j < |ps|
      ensures CopyValue(c, ps[j].key) == Success(ps[j].key)
      ensures CopyValue(c, ps[j].val) == Success(ps[j].val)
    {
      PlainCopyIsIdentity(c, ps[j].key);
      PlainCopyIsIdentity(c, ps[j].val);
    }
    CopyEntriesSucceeds(c, v, 0, []);
    CopyEntriesStores(c, v, 0, []);
    assert ps[0..] == ps;
    var copied := CopiedEntries(c, ps);
    assert forall j :: 0 <= j < |ps| ==> copied[j] == ps[j];
    assert copied == ps;
    PutAllFresh([], ps);
    assert [] + ps == ps;
  }
}

=== FILE: results.dfy ===
/** Failure-compatible wrappers used by the copy functions: `Result` carries
    either a copied value or the error the copy stops with, and supports `:-`. */
module Results {

  datatype Option<+T> = None | Some(value: T)

  datatype Result<+T, +E> = Success(value: T) | Failure(error: E) {

    predicate IsFailure() {
      Failure?
    }

    function PropagateFailure<U>(): Result<U, E>
      requires Failure?
    {
      Failure(error)
    }

    function Extract(): T
      requires Success?
    {
      value
    }
  }
}

=== FILE: scenarios.dfy ===
/** The repository's own usage examples, replayed on the model: the
    anonymising configuration, a nil pointer, a transformer applied to a nil
    field, the documented example, and the errors a configuration without
    the needed transformer gets. */
module Scenarios {
  import opened Results
  import opened Values
  import opened Ccopy
  import opened Semantics
  import opened Loops
  import opened Properties
  import opened Shapes

  // Types of the examples. Unnamed composite types are identified by
  // their written form.
  const StringType := Type("", "string")
  const IntType := Type("", "int")
  const StringSliceType := Type("", "[]string")
  const IntPtrType := Type("", "*int")
  const AType := Type("ccopy", "A")
  const APtrType := Type("", "*ccopy.A")
  const TType := Type("ccopy", "T")
  // The `T` types declared inside a test function and inside the documented
  // example are distinct from `ccopy.T` and from each other, although
  // `reflect` reports the same package and name for all three; the model
  // tells them apart by the declaring function.
  const NilFieldTType := Type("ccopy", "TestAnonymiseNilField.T")
  const ExampleTType := Type("ccopy", "Example.T")
  // Struct types of the model's own examples.
  const OuterType := Type("ccopy", "Outer")
  const HiddenType := Type("ccopy", "Hidden")

  function Str(s: string): Value { StringV(StringType, s) }

  /** A field tagged `ccopy:"name"`. */
  function Tagged(fieldName: string, tag: string, v: Value): Field {
    Field(fieldName, true, map[TagKey := tag], v)
  }

  /** An exported field without a tag. */
  function Untagged(fieldName: string, v: Value): Field {
    Field(fieldName, true, map[], v)
  }

  /** Replaces any string by "not important"; other values are left alone. */
  function AnonymiseName(v: Value): Value {
    if v.StringV? then StringV(v.ty, "not important") else v
  }

  /** Keeps only the first element of a non-empty slice. */
  function AnonymiseData(v: Value): Value {
    if v.SliceV? && v.items.Elements? && |v.items.values| > 0
    then SliceV(v.ty, Elements(v.items.values[..1]))
    else v
  }

  /** Points any pointer at a fresh int holding 1. */
  function PointToOne(v: Value): Value {
    if v.PtrV? then PtrV(v.ty, Some(IntV(IntType, Int, 1))) else v
  }

  /** Replaces any string by "john doe". */
  function JohnDoe(v: Value): Value {
    if v.StringV? then StringV(v.ty, "john doe") else v
  }

  const AnonymiseConfig: Config :=
    map["AnonymiseName" := AnonymiseName, "AnonymiseData" := AnonymiseData]

  /** A transformer that keeps the type of every value it receives. */
  ghost predicate KeepsType(f: Value -> Value) {
    forall v :: SameType(f(v), v)
  }

  /** The anonymising test's transformers keep the type of what they
      receive. */
  lemma AnonymisersKeepType()
    ensures KeepsType(AnonymiseName) && KeepsType(AnonymiseData)
  {
    forall v ensures SameType(AnonymiseName(v), v) {
      if v.StringV? { assert Zero(AnonymiseName(v)) == StringV(v.ty, "") == Zero(v); }
    }
    forall v ensures SameType(AnonymiseData(v), v) {
      if v.SliceV? { assert Zero(AnonymiseData(v)) == SliceV(v.ty, NilElements); }
    }
  }

  /** The nil-field test's transformer keeps the type of what it receives. */
  lemma PointToOneKeepsType()
    ensures KeepsType(PointToOne)
  {
    forall v ensures SameType(PointToOne(v), v) {
      if v.PtrV? { assert Zero(PointToOne(v)) == PtrV(v.ty, None); }
    }
  }

  /** The documented example's transformer keeps the type of what it
      receives. */
  lemma JohnDoeKeepsType()
    ensures KeepsType(JohnDoe)
  {
    forall v ensures SameType(JohnDoe(v), v) {
      if v.StringV? { assert Zero(JohnDoe(v)) == StringV(v.ty, "") == Zero(v); }
    }
  }

  /** The transformers of the examples keep the type of what they receive. */
  lemma ExampleTransformersKeepType()
    ensures KeepsType(AnonymiseName) && KeepsType(AnonymiseData)
    ensures KeepsType(PointToOne) && KeepsType(JohnDoe)
  {
    AnonymisersKeepType();
    PointToOneKeepsType();
    JohnDoeKeepsType();
  }

  /** The configurations of the examples hold only type-keeping
      transformers. */
  lemma ExampleConfigsWellTyped()
    ensures WellTyped(AnonymiseConfig)
    ensures WellTyped(map["fn" := PointToOne])
    ensures WellTyped(map["anonymiseName" := JohnDoe])
    ensures WellTyped(map["outer" := JohnDoe])
  {
    ExampleTransformersKeepType();
  }

  /** A value the copy can handle, under transformers that keep types, is
      copied to its deep copy. */
  lemma CopiesAsPromised(c: Config, v: Value)
    requires Supported(v) && WellTyped(c) && Clean(c, v)
    ensures CopyValue(c, v) == Success(DeepCopyOf(c, v))
  {
    CopyOutcome(c, v);
    CopyIsDeepCopy(c, v);
  }

  function AValue(data: seq<string>): Value {
    StructV(AType, [Tagged("Data", "AnonymiseData",
      SliceV(StringSliceType, Elements(seq(|data|, i requires 0 <= i < |data| => Str(data[i])))))])
  }

  function TValue(data: seq<string>, name: string): Value {
    StructV(TType, [
      Untagged("Data", AValue(data)),
      Tagged("Name", "AnonymiseName", Str(name)),
      Untagged("C", IntV(IntType, Int, 1)),
      Untagged("D", PtrV(APtrType, None))])
  }

  /** What the anonymising transformer leaves of a slice of strings: its
      first element, if it has one. */
  function FirstOnly(data: seq<string>): seq<string> {
    if |data| == 0 then data else data[..1]
  }

  /** The nested struct of the anonymising example is copyable, and its
      tagged slice is cut to its first element. */
  lemma AnonymiseNested(data: seq<string>)
    ensures Supported(AValue(data)) && Clean(AnonymiseConfig, AValue(data))
    ensures DeepCopyOf(AnonymiseConfig, AValue(data)) == AValue(FirstOnly(data))
  {
    var a := AValue(data);
    var b := AValue(FirstOnly(data));
    var f := a.fields[0];
    assert TagOf(f) == "AnonymiseData";
    if |data| > 0 {
      var items := f.val.items.values;
      assert items[..1] == b.fields[0].val.items.values;
    }
    assert AnonymiseData(f.val) == b.fields[0].val;
    var d := DeepCopyOf(AnonymiseConfig, a);
    assert d.fields[0] == b.fields[0];
    assert d.fields == b.fields;
  }

  /** The fields of the anonymising example's outer struct, one by one. */
  lemma AnonymiseFields(data: seq<string>, name: string)
    ensures var fs := TValue(data, name).fields;
      && |fs| == 4
      && fs[0].exported && TagOf(fs[0]) == "" && fs[0].val == AValue(data)
      && fs[1].exported && TagOf(fs[1]) == "AnonymiseName" && fs[1].val == Str(name)
      && fs[2].exported && TagOf(fs[2]) == "" && fs[2].val == IntV(IntType, Int, 1)
      && fs[3].exported && TagOf(fs[3]) == "" && fs[3].val == PtrV(APtrType, None)
  {
  }

  /** The outer struct of the anonymising example holds nothing the copy
      rejects by panicking. */
  lemma AnonymiseSupported(data: seq<string>, name: string)
    ensures Supported(TValue(data, name))
  {
    AnonymiseFields(data, name);
    AnonymiseNested(data);
  }

  /** The outer struct of the anonymising example copies without error. */
  lemma AnonymiseClean(data: seq<string>, name: string)
    ensures Clean(AnonymiseConfig, TValue(data, name))
  {
    AnonymiseFields(data, name);
    AnonymiseNested(data);
    assert "AnonymiseName" in AnonymiseConfig;
  }

  /** The anonymising configuration replaces the name, cuts the nested slice
      to its first element, and copies the rest. */
  lemma AnonymiseDeepCopy(data: seq<string>, name: string)
    ensures DeepCopyOf(AnonymiseConfig, TValue(data, name)) ==
            TValue(FirstOnly(data), "not important")
  {
    var c := AnonymiseConfig;
    var v := TValue(data, name);
    var w := TValue(FirstOnly(data), "not important");
    AnonymiseFields(data, name);
    AnonymiseFields(FirstOnly(data), "not important");
    AnonymiseNested(data);
    var d := DeepCopyOf(c, v);
    assert d.fields[0] == w.fields[0];
    assert d.fields[1] == w.fields[1];
    assert DeepCopyOf(c, v.fields[2].val) == v.fields[2].val;
    assert d.fields[2] == w.fields[2];
    assert DeepCopyOf(c, v.fields[3].val) == v.fields[3].val;
    assert d.fields[3] == w.fields[3];
    assert d.fields == w.fields;
  }

  /** The repository's anonymising example: the tagged name is replaced, the
      tagged nested slice is cut to its first element, and the rest is
      copied. */
  lemma AnonymiseExample()
    ensures Copy(AnonymiseConfig, Some(TValue(["1", "2"], "important")))
         == Success(TValue(["1"], "not important"))
  {
    AnonymiseCopy(["1", "2"], "important");
    assert FirstOnly(["1", "2"]) == ["1"];
  }

  /** Whatever its data and name, the anonymising example copies to the
      replaced name and the cut slice, with the rest unchanged. */
  lemma AnonymiseCopy(data: seq<string>, name: string)
    ensures Copy(AnonymiseConfig, Some(TValue(data, name)))
         == Success(TValue(FirstOnly(data), "not important"))
  {
    var v := TValue(data, name);
    ExampleConfigsWellTyped();
    AnonymiseSupported(data, name);
    AnonymiseClean(data, name);
    CopiesAsPromised(AnonymiseConfig, v);
    AnonymiseDeepCopy(data, name);
    assert ValueOf(Some(v)) == v;
  }

  /** A nil `*int` copies to a nil `*int`, with no transformers at all. */
  lemma NilPointerExample()
    ensures Copy(map[], Some(PtrV(IntPtrType, None))) == Success(PtrV(IntPtrType, None))
  {
  }

  /** A transformer is applied to a tagged field even when it is nil, and
      the pointer it returns is kept. */
  lemma NilFieldExample()
    ensures Copy(map["fn" := PointToOne],
                 Some(StructV(NilFieldTType, [Tagged("A", "fn", PtrV(IntPtrType, None))])))
         == Success(StructV(NilFieldTType,
                            [Tagged("A", "fn", PtrV(IntPtrType, Some(IntV(IntType, Int, 1))))]))
  {
    var c := map["fn" := PointToOne];
    var f := Tagged("A", "fn", PtrV(IntPtrType, None));
    var v := StructV(NilFieldTType, [f]);
    ExampleConfigsWellTyped();
    assert TagOf(f) == "fn";
    CopiesAsPromised(c, v);
    var d := DeepCopyOf(c, v);
    assert d.fields[0] == f.(val := PointToOne(f.val));
    assert d.fields == [f.(val := PointToOne(f.val))];
  }

  function SecretValue(name: string): Value {
    StructV(ExampleTType,
            [Untagged("A", IntV(IntType, Int, 2)), Tagged("Name", "anonymiseName", Str(name))])
  }

  /** The transformer of the documented example replaces the name, whatever
      it was, and leaves the other field alone. */
  lemma DocumentedDeepCopy(name: string)
    ensures Supported(SecretValue(name))
    ensures Clean(map["anonymiseName" := JohnDoe], SecretValue(name))
    ensures DeepCopyOf(map["anonymiseName" := JohnDoe], SecretValue(name)) ==
            SecretValue("john doe")
  {
    var c := map["anonymiseName" := JohnDoe];
    var v := SecretValue(name);
    var w := SecretValue("john doe");
    assert TagOf(v.fields[0]) == "" && TagOf(v.fields[1]) == "anonymiseName";
    var d := DeepCopyOf(c, v);
    assert DeepCopyOf(c, v.fields[0].val) == v.fields[0].val;
    assert d.fields[0] == w.fields[0];
    assert d.fields[1] == w.fields[1];
    assert d.fields == w.fields;
  }

  /** The documented example: `{A: 2, Name: "Secret name"}` copies to
      `{A: 2, Name: "john doe"}`. */
  lemma DocumentedExample()
    ensures Copy(map["anonymiseName" := JohnDoe], Some(SecretValue("Secret name")))
         == Success(SecretValue("john doe"))
  {
    var v := SecretValue("Secret name");
    ExampleConfigsWellTyped();
    DocumentedDeepCopy("Secret name");
    CopiesAsPromised(map["anonymiseName" := JohnDoe], v);
    assert ValueOf(Some(v)) == v;
  }

  /** Without the transformer its tag names, the same copy fails and says
      which transformer is missing. */
  lemma MissingTransformerExample()
    ensures Copy(map[], Some(SecretValue("Secret name")))
         == Failure(MissingCustomiser("anonymiseName"))
  {
    var v := SecretValue("Secret name");
    assert TagOf(v.fields[0]) == "" && TagOf(v.fields[1]) == "anonymiseName";
    assert Supported(v);
    assert FieldError(map[], v.fields[0]).None?;
    MissingCustomiserReported(map[], v, 1);
    assert CopyValue(map[], v) == Failure(MissingCustomiser("anonymiseName"));
    assert ValueOf(Some(v)) == v;
  }

  /** The message the missing transformer of the documented example gives. */
  lemma ExampleMessage()
    ensures Message(MissingCustomiser("anonymiseName")) ==
            "missing copy customiser for: anonymiseName"
  {
  }

  /** A tagged field is handed to its transformer as it is and not copied
      first: a nested field the transformer leaves alone keeps its tag's
      transformer unused, so its absence from the configuration is no
      error. */
  lemma TaggedFieldNotEntered()
    ensures Copy(map["outer" := JohnDoe],
                 Some(StructV(OuterType, [Tagged("Inner", "outer", SecretValue("x"))])))
         == Success(StructV(OuterType, [Tagged("Inner", "outer", SecretValue("x"))]))
  {
    var c := map["outer" := JohnDoe];
    var f := Tagged("Inner", "outer", SecretValue("x"));
    var v := StructV(OuterType, [f]);
    ExampleConfigsWellTyped();
    assert TagOf(f) == "outer";
    assert Supported(v) && Clean(c, v);
    CopiesAsPromised(c, v);
    var d := DeepCopyOf(c, v);
    assert d.fields[0] == f;
    assert d.fields == [f];
  }

  /** An unexported field comes out zero, and nothing at all is not a
      value. */
  lemma UnexportedAndInvalidExample()
    ensures Copy(map[],
                 Some(StructV(HiddenType, [Field("secret", false, map[], IntV(IntType, Int, 5))])))
         == Success(StructV(HiddenType, [Field("secret", false, map[], IntV(IntType, Int, 0))]))
    ensures Copy(map[], None) == Failure(InvalidValue)
  {
    var v := StructV(HiddenType, [Field("secret", false, map[], IntV(IntType, Int, 5))]);
    assert WellTyped(map[]);
    CopiesAsPromised(map[], v);
    var d := DeepCopyOf(map[], v);
    assert d.fields[0] == Field("secret", false, map[], IntV(IntType, Int, 0));
    assert d.fields == [Field("secret", false, map[], IntV(IntType, Int, 0))];
  }
}

=== FILE: semantics.dfy ===
/** Independent descriptions of the copy, written without loops, errors or
    the zero-skip: which values copy without error, which errors a value can
    give rise to, and the value a successful copy produces. */
module Semantics {
  import opened Results
  import opened Values
  import opened Ccopy

  /** Every registered transformer returns a value of its argument's type,
      which `reflect.Value.Set` demands of the value it stores into the
      field. */
  ghost predicate WellTyped(c: Config) {
    forall t, v :: t in c ==> SameType(c[t](v), v)
  }

  /** The copy of `v` meets no invalid value and no tag without a
      registered transformer. Tagged fields are not looked into. */
  predicate Clean(c: Config, v: Value)
    decreases v
  {
    if v.Invalid? then false
    else if IsTime(v) then true
    else match v
      case PtrV(_, e) => e.None? || Clean(c, e.value)
      case InterfaceV(_, e) => e.None? || Clean(c, e.value)
      case StructV(_, fs) =>
        forall i :: 0 <= i < |fs| && fs[i].exported ==>
          if TagOf(fs[i]) == "" then Clean(c, fs[i].val) else TagOf(fs[i]) in c
      case SliceV(_, items) =>
        items.NilElements? || forall i :: 0 <= i < |items.values| ==> Clean(c, items.values[i])
      case ArrayV(_, es) => forall i :: 0 <= i < |es| ==> Clean(c, es[i])
      case MapV(_, entries) =>
        entries.NilEntries? ||
        forall i :: 0 <= i < |entries.pairs| ==>
          Clean(c, entries.pairs[i].key) && Clean(c, entries.pairs[i].val)
      case _ => true
  }

  /** Some position the copy of `v` visits gives rise to error `e`: an
      invalid value, or an exported field whose tag has no transformer. */
  predicate Raises(c: Config, v: Value, e: Error)
    decreases v
  {
    if v.Invalid? then e == InvalidValue
    else if IsTime(v) then false
    else match v
      case PtrV(_, p) => p.Some? && Raises(c, p.value, e)
      case InterfaceV(_, p) => p.Some? && Raises(c, p.value, e)
      case StructV(_, fs) =>
        exists i :: 0 <= i < |fs| && fs[i].exported &&
          if TagOf(fs[i]) == "" then Raises(c, fs[i].val, e)
          else TagOf(fs[i]) !in c && e == MissingCustomiser(TagOf(fs[i]))
      case SliceV(_, items) =>
        items.Elements? && exists i :: 0 <= i < |items.values| && Raises(c, items.values[i], e)
      case ArrayV(_, es) => exists i :: 0 <= i < |es| && Raises(c, es[i], e)
      case MapV(_, entries) =>
        entries.Entries? &&
        exists i :: 0 <= i < |entries.pairs| &&
          (Raises(c, entries.pairs[i].key, e) || Raises(c, entries.pairs[i].val, e))
      case _ => false
  }

  /** The entries stored one after another into `acc`, each replacing an
      earlier binding of its key. */
  function PutAll(acc: seq<Entry>, xs: seq<Entry>): (r: seq<Entry>)
    ensures Keys(r) == Keys(acc) + Keys(xs)
    ensures DistinctKeys(acc) ==> DistinctKeys(r)
    decreases |xs|
  {
    if xs == [] then acc else PutAll(Put(acc, xs[0].key, xs[0].val), xs[1..])
  }

  /** The value of the last entry of `xs` whose key is `k`, if any: the
      binding a map keeps after its entries are assigned in order. */
  function LastBinding(xs: seq<Entry>, k: Value): Option<Value>
    decreases |xs|
  {
    if xs == [] then None
    else if LastBinding(xs[1..], k).Some? then LastBinding(xs[1..], k)
    else if xs[0].key == k then Some(xs[0].val)
    else None
  }

  /** The deep copy of `v` as the package promises it: a `time.Time` and
      every scalar, function and channel shared; nil stays nil; pointees,
      held values, elements, keys and values copied; an unexported field
      zero; an untagged exported field the copy of the original; a tagged
      one the transformer's result on the original. */
  function DeepCopyOf(c: Config, v: Value): Value
    decreases v
  {
    if v.Invalid? || IsTime(v) then v
    else match v
      case PtrV(ty, e) => if e.None? then v else PtrV(ty, Some(DeepCopyOf(c, e.value)))
      case InterfaceV(ty, e) => if e.None? then v else InterfaceV(ty, Some(DeepCopyOf(c, e.value)))
      case StructV(ty, fs) =>
        StructV(ty, seq(|fs|, i requires 0 <= i < |fs| =>
          fs[i].(val :=
            if !fs[i].exported then Zero(fs[i].val)
            else if TagOf(fs[i]) == "" then DeepCopyOf(c, fs[i].val)
            else if TagOf(fs[i]) in c then c[TagOf(fs[i])](fs[i].val)
            else fs[i].val)))
      case SliceV(ty, items) =>
        if items.NilElements? then v
        else SliceV(ty, Elements(seq(|items.values|, i requires 0 <= i < |items.values| =>
          DeepCopyOf(c, items.values[i]))))
      case ArrayV(ty, es) => ArrayV(ty, seq(|es|, i requires 0 <= i < |es| => DeepCopyOf(c, es[i])))
      case MapV(ty, entries) =>
        if entries.NilEntries? then v
        else MapV(ty, Entries(PutAll([], seq(|entries.pairs|, i requires 0 <= i < |entries.pairs| =>
          Entry(DeepCopyOf(c, entries.pairs[i].key), DeepCopyOf(c, entries.pairs[i].val))))))
      case _ => v
  }

  /** A value the copy must reproduce exactly: nothing invalid, no tagged and
      no unexported field (outside `time.Time`), and maps without duplicate
      keys. */
  predicate Plain(v: Value)
    decreases v
  {
    if v.Invalid? then false
    else if IsTime(v) then true
    else match v
      case PtrV(_, e) => e.None? || Plain(e.value)
      case InterfaceV(_, e) => e.None? || Plain(e.value)
      case StructV(_, fs) =>
        forall i :: 0 <= i < |fs| ==> fs[i].exported && TagOf(fs[i]) == "" && Plain(fs[i].val)
      case SliceV(_, items) =>
        items.NilElements? || forall i :: 0 <= i < |items.values| ==> Plain(items.values[i])
      case ArrayV(_, es) => forall i :: 0 <= i < |es| ==> Plain(es[i])
      case MapV(_, entries) =>
        entries.NilEntries? ||
        (DistinctKeys(entries.pairs) &&
         forall i :: 0 <= i < |entries.pairs| ==>
           Plain(entries.pairs[i].key) && Plain(entries.pairs[i].val))
      case _ => true
  }
}

=== FILE: shapes.dfy ===
/** What the copy does with each shape of value, stated shape by shape:
    which error a struct, slice, array or map reports, what a pointer or
    interface copy holds, and how a `time.Time` is kept. */
module Shapes {
  import opened Results
  import opened Values
  import opened Ccopy
  import opened Semantics
  import opened Loops
  import opened Properties

  /** At most one field is the first to stop the struct loop. */
  lemma FirstFieldErrorUnique(c: Config, v: Value, j: nat, j': nat, e: Error, e': Error)
    requires v.StructV? && Supported(v)
    requires FirstFieldError(c, v, 0, j, e) && FirstFieldError(c, v, 0, j', e')
    ensures j == j' && e == e'
  {
  }

  /** At most one element is the first whose copy fails. */
  lemma FirstElemErrorUnique(c: Config, es: seq<Value>, j: nat, j': nat, e: Error, e': Error)
    requires forall k :: 0 <= k < |es| ==> Supported(es[k])
    requires FirstElemError(c, es, 0, j, e) && FirstElemError(c, es, 0, j', e')
    ensures j == j' && e == e'
  {
  }

  /** At most one entry is the first whose copy fails. */
  lemma FirstEntryErrorUnique(c: Config, ps: seq<Entry>, j: nat, j': nat, e: Error, e': Error)
    requires EntriesSupported(ps)
    requires FirstEntryError(c, ps, 0, j, e) && FirstEntryError(c, ps, 0, j', e')
    ensures j == j' && e == e'
  {
  }

  /** A struct copy fails with `e` exactly when the first field that stops
      the field loop is one that raises `e`. */
  lemma CopyStructError(c: Config, v: Value, e: Error)
    requires v.StructV? && !IsTime(v) && Supported(v)
    ensures CopyValue(c, v) == Failure(e) <==> exists j :: FirstFieldError(c, v, 0, j, e)
  {
    var z := Zero(v).fields;
    assert CopyValue(c, v) == CopyFields(c, v, 0, z);
    if CopyValue(c, v).Failure? {
      CopyFieldsFails(c, v, 0, z);
      var j: nat :| FirstFieldError(c, v, 0, j, CopyValue(c, v).error);
      forall j': nat, e': Error | FirstFieldError(c, v, 0, j', e')
        ensures e' == CopyValue(c, v).error
      {
        FirstFieldErrorUnique(c, v, j, j', CopyValue(c, v).error, e');
      }
    } else {
      CopyFieldsSucceeds(c, v, 0, z);
    }
  }

  /** A tagged field with no transformer, preceded only by fields that copy
      cleanly, makes the struct copy fail naming that field's tag. */
  lemma MissingCustomiserReported(c: Config, v: Value, j: nat)
    requires v.StructV? && !IsTime(v) && Supported(v)
    requires j < |v.fields| && v.fields[j].exported
    requires TagOf(v.fields[j]) != "" && TagOf(v.fields[j]) !in c
    requires forall k :: 0 <= k < j ==> FieldError(c, v.fields[k]).None?
    ensures CopyValue(c, v) == Failure(MissingCustomiser(TagOf(v.fields[j])))
  {
    var e := MissingCustomiser(TagOf(v.fields[j]));
    assert FirstFieldError(c, v, 0, j, e);
    CopyStructError(c, v, e);
  }

  /** A successful struct copy keeps every field's name, visibility and
      tags; an unexported field holds its zero value, an untagged field the
      copy of the original, and a tagged field (whose transformer must
      exist) the transformer's result on the original. */
  lemma CopyStructFields(c: Config, v: Value)
    requires v.StructV? && !IsTime(v) && Supported(v) && WellTyped(c)
    requires CopyValue(c, v).Success?
    ensures var r := CopyValue(c, v).value;
      && r.StructV? && r.ty == v.ty && |r.fields| == |v.fields|
      && forall j :: 0 <= j < |v.fields| ==>
        && r.fields[j].name == v.fields[j].name
        && r.fields[j].exported == v.fields[j].exported
        && r.fields[j].tags == v.fields[j].tags
        && (!v.fields[j].exported ==> r.fields[j].val == Zero(v.fields[j].val))
        && (v.fields[j].exported && TagOf(v.fields[j]) == "" ==>
              CopyValue(c, v.fields[j].val) == Success(r.fields[j].val))
        && (v.fields[j].exported && TagOf(v.fields[j]) != "" ==>
              TagOf(v.fields[j]) in c && r.fields[j].val == c[TagOf(v.fields[j])](v.fields[j].val))
  {
    var r := CopyValue(c, v).value;
    CopyIsDeepCopy(c, v);
    CopyOutcome(c, v);
    forall j | 0 <= j < |v.fields| && v.fields[j].exported && TagOf(v.fields[j]) == ""
      ensures CopyValue(c, v.fields[j].val) == Success(r.fields[j].val)
    {
      CopyOutcome(c, v.fields[j].val);
      CopyIsDeepCopy(c, v.fields[j].val);
    }
  }

  /** A pointer copy fails exactly when the pointee's copy fails, with its
      error; with type-preserving transformers a successful copy points to
      the pointee's copy, even when that copy is zero. */
  lemma CopyPointerSpec(c: Config, v: Value)
    requires v.PtrV? && v.elem.Some? && !IsTime(v) && Supported(v)
    ensures Supported(v.elem.value)
    ensures CopyValue(c, v).Failure? <==> CopyValue(c, v.elem.value).Failure?
    ensures CopyValue(c, v).Failure? ==> CopyValue(c, v).error == CopyValue(c, v.elem.value).error
    ensures CopyValue(c, v).Success? && WellTyped(c) ==>
      CopyValue(c, v).value == PtrV(v.ty, Some(CopyValue(c, v.elem.value).value))
  {
    var p := v.elem.value;
    if CopyValue(c, p).Success? && WellTyped(c) {
      var w := CopyValue(c, p).value;
      CopyPreservesType(c, p);
      ZeroIff(w);
    }
  }

  /** An interface copy fails exactly when the held value's copy fails, with
      its error, and otherwise holds that copy. */
  lemma CopyInterfaceSpec(c: Config, v: Value)
    requires v.InterfaceV? && v.elem.Some? && !IsTime(v) && Supported(v)
    ensures Supported(v.elem.value)
    ensures CopyValue(c, v).Failure? <==> CopyValue(c, v.elem.value).Failure?
    ensures CopyValue(c, v).Failure? ==> CopyValue(c, v).error == CopyValue(c, v.elem.value).error
    ensures CopyValue(c, v).Success? ==>
      CopyValue(c, v).value == InterfaceV(v.ty, Some(CopyValue(c, v.elem.value).value))
  {
  }

  /** The element loop fails with `e` exactly when the first element whose
      copy fails raises `e`. */
  lemma ElemsError(c: Config, v: Value, es: seq<Value>, e: Error)
    requires (v.SliceV? && v.items == Elements(es)) || (v.ArrayV? && v.elems == es)
    requires Supported(v)
    ensures forall k :: 0 <= k < |es| ==> Supported(es[k])
    ensures CopyElems(c, v, es, 0, []) == Failure(e) <==> exists j :: FirstElemError(c, es, 0, j, e)
  {
    CopyElemsSucceeds(c, v, es, 0, []);
    if CopyElems(c, v, es, 0, []).Failure? {
      CopyElemsFails(c, v, es, 0, []);
      var j: nat :| FirstElemError(c, es, 0, j, CopyElems(c, v, es, 0, []).error);
      forall j': nat, e': Error | FirstElemError(c, es, 0, j', e')
        ensures e' == CopyElems(c, v, es, 0, []).error
      {
        FirstElemErrorUnique(c, es, j, j', CopyElems(c, v, es, 0, []).error, e');
      }
    }
  }

  /** A non-nil slice copies exactly when every element does, into a slice
      of the same length whose elements are the elements' copies; a failure
      reports the first failing element's error. */
  lemma CopySliceSpec(c: Config, v: Value, e: Error)
    requires v.SliceV? && v.items.Elements? && !IsTime(v) && Supported(v)
    ensures forall j :: 0 <= j < |v.items.values| ==> Supported(v.items.values[j])
    ensures CopyValue(c, v).Success? <==>
      forall j :: 0 <= j < |v.items.values| ==> CopyValue(c, v.items.values[j]).Success?
    ensures CopyValue(c, v).Success? ==>
      && CopyValue(c, v).value.items.Elements?
      && |CopyValue(c, v).value.items.values| == |v.items.values|
      && forall j :: 0 <= j < |v.items.values| ==>
        CopyValue(c, v.items.values[j]) == Success(CopyValue(c, v).value.items.values[j])
    ensures CopyValue(c, v) == Failure(e) <==>
      exists j :: FirstElemError(c, v.items.values, 0, j, e)
  {
    var es := v.items.values;
    CopyElemsSucceeds(c, v, es, 0, []);
    ElemsError(c, v, es, e);
    if CopyElems(c, v, es, 0, []).Success? {
      CopyElemsCopies(c, v, es, 0, []);
    }
  }

  /** An array copies exactly when every element does, into an array whose
      elements are the elements' copies; a failure reports the first failing
      element's error. */
  lemma CopyArraySpec(c: Config, v: Value, e: Error)
    requires v.ArrayV? && !IsTime(v) && Supported(v)
    ensures forall j :: 0 <= j < |v.elems| ==> Supported(v.elems[j])
    ensures CopyValue(c, v).Success? <==>
      forall j :: 0 <= j < |v.elems| ==> CopyValue(c, v.elems[j]).Success?
    ensures CopyValue(c, v).Success? ==>
      && |CopyValue(c, v).value.elems| == |v.elems|
      && forall j :: 0 <= j < |v.elems| ==>
           CopyValue(c, v.elems[j]) == Success(CopyValue(c, v).value.elems[j])
    ensures CopyValue(c, v) == Failure(e) <==> exists j :: FirstElemError(c, v.elems, 0, j, e)
  {
    var es := v.elems;
    CopyElemsSucceeds(c, v, es, 0, []);
    ElemsError(c, v, es, e);
    if CopyElems(c, v, es, 0, []).Success? {
      CopyElemsCopies(c, v, es, 0, []);
    }
  }

  /** A non-nil map copies exactly when every key and value does; the copy
      stores the copied pairs in iteration order, so each copied key is
      bound to the copied value of its last entry, and the copy equals the
      copied pairs when no two copied keys collide. A failure reports the
      error of the first entry, in iteration order, whose key or value fails
      to copy. Keys are compared by value. */
  lemma CopyMapSpec(c: Config, v: Value, e: Error)
    requires v.MapV? && v.entries.Entries? && !IsTime(v) && Supported(v)
    ensures EntriesSupported(v.entries.pairs)
    ensures CopyValue(c, v).Success? <==>
      forall j :: 0 <= j < |v.entries.pairs| ==> EntryError(c, v.entries.pairs[j]).None?
    ensures CopyValue(c, v).Success? ==>
      && CopyValue(c, v).value.entries.Entries?
      && CopyValue(c, v).value.entries.pairs == PutAll([], CopiedEntries(c, v.entries.pairs))
      && (forall k :: Lookup(CopyValue(c, v).value.entries.pairs, k) ==
                     LastBinding(CopiedEntries(c, v.entries.pairs), k))
      && (DistinctKeys(CopiedEntries(c, v.entries.pairs)) ==>
            CopyValue(c, v).value.entries.pairs == CopiedEntries(c, v.entries.pairs))
    ensures CopyValue(c, v) == Failure(e) <==>
      exists j :: FirstEntryError(c, v.entries.pairs, 0, j, e)
  {
    var ps := v.entries.pairs;
    CopyEntriesSucceeds(c, v, 0, []);
    if CopyEntries(c, v, 0, []).Success? {
      CopyEntriesStores(c, v, 0, []);
      assert ps[0..] == ps;
      var copied := CopiedEntries(c, ps);
      forall k {
        PutAllLookup([], copied, k);
      }
      if DistinctKeys(copied) {
        PutAllFresh([], copied);
        assert [] + copied == copied;
      }
    } else {
      CopyEntriesFails(c, v, 0, []);
      var j: nat :| FirstEntryError(c, ps, 0, j, CopyEntries(c, v, 0, []).error);
      forall j': nat, e': Error | FirstEntryError(c, ps, 0, j', e')
        ensures e' == CopyEntries(c, v, 0, []).error
      {
        FirstEntryErrorUnique(c, ps, j, j', CopyEntries(c, v, 0, []).error, e');
      }
    }
  }

  /** A `time.Time` is shared as it is, even though the struct loop would
      reset its unexported fields: the type check before the kind switch is
      what keeps a time's hidden state. */
  lemma TimeKeptAsIs(c: Config, v: Value)
    requires IsTime(v) && v.StructV? && Supported(v)
    ensures CopyValue(c, v) == Success(v)
    ensures (exists j :: 0 <= j < |v.fields| && !v.fields[j].exported && !IsZero(v.fields[j].val)) ==>
      CopyStruct(c, v) != Success(v)
  {
    var z := Zero(v).fields;
    if j :| 0 <= j < |v.fields| && !v.fields[j].exported && !IsZero(v.fields[j].val) {
      if CopyStruct(c, v).Success? {
        CopyFieldsStores(c, v, 0, z);
        assert z[j] == ZeroField(v.fields[j]);
        ZeroIff(v.fields[j].val);
        assert CopyStruct(c, v).value.fields[j].val != v.fields[j].val;
      }
    }
  }

  /** The message of an error determines the error. */
  lemma MessageIdentifiesError(a: Error, b: Error)
    ensures Message(a) == Message(b) <==> a == b
  {
    if Message(a) == Message(b) && a.MissingCustomiser? && b.MissingCustomiser? {
      assert a.tag == Message(a)[29..];
    }
  }
}

=== FILE: values.dfy ===
/** The runtime values the copy walks over, in place of Go's `reflect.Value`.
    There is one constructor per shape the dispatcher distinguishes; every
    constructor except `Invalid` carries the value's dynamic type. */
module Values {
  import opened Results

  /** A Go type as `reflect.Type` identifies it: `PkgPath()` and `Name()` for
      a defined type. For an unnamed type `Name()` is empty; by the model's
      convention such a type has an empty package path and its type literal
      (`[]string`, `*int`) as name, so that distinct unnamed types differ. */
  datatype Type = Type(pkgPath: string, name: string)

  /** The integer kinds of `reflect`. `Uintptr` is one of them, but the copy
      does not support it. */
  datatype IntKind = Int | Int8 | Int16 | Int32 | Int64
                   | Uint | Uint8 | Uint16 | Uint32 | Uint64 | Uintptr

  datatype FloatKind = Float32 | Float64

  datatype ComplexKind = Complex64 | Complex128

  /** Opaque identity of a function value or a channel. */
  type Handle = nat

  /** A struct field: its name, whether it is exported (`CanInterface`), its
      struct tag as key/value pairs, and its current value. */
  datatype Field = Field(name: string, exported: bool, tags: map<string, string>, val: Value)

  /** A key/value pair of a map. */
  datatype Entry = Entry(key: Value, val: Value)

  /** The elements of a slice: a nil slice has none and no backing array. */
  datatype Elements = NilElements | Elements(values: seq<Value>)

  /** The entries of a map, in the order an iteration over the map visits
      them: a nil map has none and cannot be written to. */
  datatype Entries = NilEntries | Entries(pairs: seq<Entry>)

  /** A runtime value. Floating-point and complex numbers are kept as their
      IEEE bit patterns; `None` stands for a nil pointer, interface, function
      or channel. */
  datatype Value =
    | Invalid
    | BoolV(ty: Type, b: bool)
    | IntV(ty: Type, ikind: IntKind, i: int)
    | FloatV(ty: Type, fkind: FloatKind, bits: nat)
    | ComplexV(ty: Type, ckind: ComplexKind, re: nat, im: nat)
    | StringV(ty: Type, s: string)
    | FuncV(ty: Type, fn: Option<Handle>)
    | ChanV(ty: Type, ch: Option<Handle>)
    | UnsafePointerV(ty: Type, addr: nat)
    | PtrV(ty: Type, elem: Option<Value>)
    | InterfaceV(ty: Type, elem: Option<Value>)
    | StructV(ty: Type, fields: seq<Field>)
    | SliceV(ty: Type, items: Elements)
    | ArrayV(ty: Type, elems: seq<Value>)
    | MapV(ty: Type, entries: Entries)

  /** The name `reflect.Kind.String()` gives the value's kind. */
  function KindName(v: Value): string {
    match v
    case Invalid => "invalid"
    case BoolV(_, _) => "bool"
    case IntV(_, k, _) =>
      (match k
       case Int => "int" case Int8 => "int8" case Int16 => "int16"
       case Int32 => "int32" case Int64 => "int64" case Uint => "uint"
       case Uint8 => "uint8" case Uint16 => "uint16" case Uint32 => "uint32"
       case Uint64 => "uint64" case Uintptr => "uintptr")
    case FloatV(_, k, _) => if k == Float32 then "float32" else "float64"
    case ComplexV(_, k, _, _) => if k == Complex64 then "complex64" else "complex128"
    case StringV(_, _) => "string"
    case FuncV(_, _) => "func"
    case ChanV(_, _) => "chan"
    case UnsafePointerV(_, _) => "unsafe.Pointer"
    case PtrV(_, _) => "ptr"
    case InterfaceV(_, _) => "interface"
    case StructV(_, _) => "struct"
    case SliceV(_, _) => "slice"
    case ArrayV(_, _) => "array"
    case MapV(_, _) => "map"
  }

  /** `reflect.Value.IsZero`: nil for the reference-like kinds, all fields or
      elements zero for structs and arrays, the zero scalar otherwise. (Go
      panics on an invalid value; the model calls it zero.) */
  predicate IsZero(v: Value)
    decreases v
  {
    match v
    case Invalid => true
    case BoolV(_, b) => !b
    case IntV(_, _, i) => i == 0
    case FloatV(_, _, bits) => bits == 0
    case ComplexV(_, _, re, im) => re == 0 && im == 0
    case StringV(_, s) => s == ""
    case FuncV(_, fn) => fn.None?
    case ChanV(_, ch) => ch.None?
    case UnsafePointerV(_, addr) => addr == 0
    case PtrV(_, e) => e.None?
    case InterfaceV(_, e) => e.None?
    case StructV(_, fs) => forall i :: 0 <= i < |fs| ==> IsZero(fs[i].val)
    case SliceV(_, items) => items.NilElements?
    case ArrayV(_, es) => forall i :: 0 <= i < |es| ==> IsZero(es[i])
    case MapV(_, entries) => entries.NilEntries?
  }

  /** Two field lists declare the same fields: the same names, visibility and
      tags, in the same order. */
  predicate SameFieldShapes(fs: seq<Field>, gs: seq<Field>) {
    && |fs| == |gs|
    && forall i :: 0 <= i < |fs| ==> fs[i].(val := Invalid) == gs[i].(val := Invalid)
  }

  /** Each field of the struct `z`, or each element of the array `z`, is the
      zero of the corresponding part of `v`. */
  predicate ZeroedParts(v: Value, z: Value)
    decreases v, 0
  {
    && (v.StructV? && z.StructV? && |z.fields| == |v.fields| ==>
          forall j :: 0 <= j < |v.fields| ==> z.fields[j].val == Zero(v.fields[j].val))
    && (v.ArrayV? && z.ArrayV? && |z.elems| == |v.elems| ==>
          forall j :: 0 <= j < |v.elems| ==> z.elems[j] == Zero(v.elems[j]))
  }

  /** `reflect.Zero` of the value's type: what a freshly allocated variable of
      that type holds. */
  function Zero(v: Value): (z: Value)
    ensures IsZero(z)
    ensures KindName(z) == KindName(v)
    ensures !v.Invalid? ==> z.ty == v.ty
    ensures v.StructV? ==> z.StructV? && |z.fields| == |v.fields|
    ensures v.StructV? ==> SameFieldShapes(z.fields, v.fields)
    ensures v.ArrayV? ==> z.ArrayV? && |z.elems| == |v.elems|
    ensures ZeroedParts(v, z)
    decreases v, 1
  {
    match v
    case Invalid => Invalid
    case BoolV(ty, _) => BoolV(ty, false)
    case IntV(ty, k, _) => IntV(ty, k, 0)
    case FloatV(ty, k, _) => FloatV(ty, k, 0)
    case ComplexV(ty, k, _, _) => ComplexV(ty, k, 0, 0)
    case StringV(ty, _) => StringV(ty, "")
    case FuncV(ty, _) => FuncV(ty, None)
    case ChanV(ty, _) => ChanV(ty, None)
    case UnsafePointerV(ty, _) => UnsafePointerV(ty, 0)
    case PtrV(ty, _) => PtrV(ty, None)
    case InterfaceV(ty, _) => InterfaceV(ty, None)
    case StructV(ty, fs) =>
      StructV(ty, seq(|fs|, i requires 0 <= i < |fs| => fs[i].(val := Zero(fs[i].val))))
    case SliceV(ty, _) => SliceV(ty, NilElements)
    case ArrayV(ty, es) => ArrayV(ty, seq(|es|, i requires 0 <= i < |es| => Zero(es[i])))
    case MapV(ty, _) => MapV(ty, NilEntries)
  }

  /** A field with its value replaced by the zero of the field's type. */
  function ZeroField(f: Field): Field {
    f.(val := Zero(f.val))
  }

  /** Two values have the same type exactly when their zero values agree: the
      zero of a type records its name, and for structs and arrays also the
      field list and the length. */
  predicate SameType(a: Value, b: Value) {
    Zero(a) == Zero(b)
  }

  /** A value is zero exactly when it is the zero value of its own type. */
  lemma {:induction false} ZeroIff(v: Value)
    ensures IsZero(v) <==> Zero(v) == v
    decreases v
  {
    match v
    case StructV(ty, fs) =>
      if IsZero(v) {
        forall i | 0 <= i < |fs|
          ensures Zero(fs[i].val) == fs[i].val
        {
          ZeroIff(fs[i].val);
        }
        assert Zero(v).fields == fs;
      }
    case ArrayV(ty, es) =>
      if IsZero(v) {
        forall i | 0 <= i < |es|
          ensures Zero(es[i]) == es[i]
        {
          ZeroIff(es[i]);
        }
        assert Zero(v).elems == es;
      }
    case _ =>
  }

  /** The zero value of a type is its own zero: `Zero` is idempotent. */
  lemma ZeroIdempotent(v: Value)
    ensures Zero(Zero(v)) == Zero(v)
  {
    ZeroIff(Zero(v));
  }
}
